=== FILE: README.md ===
# DuellSystem duel coordinator — a Dafny model

DuellSystem is a Minecraft server plugin for one-on-one duels between players. A
player challenges another (optionally staking money), the target accepts within a
timeout, a countdown runs, and the duel ends with a death, a disconnect or a server
shutdown. A positive stake moves from the loser to the winner through the server's
economy provider. While a duel is live, the plugin filters damage between players and
blocks most chat commands of the participants.

This project models the core of that plugin:

- `DuellManager`: the request indexes, the session registry, and the timeout and
  countdown tasks.
- `DuellSession`, `DuellRequest`: the value types.
- `EconomyManager`: the affordability check and the withdraw / deposit / refund
  transfer.
- `DuellListener`: the death, quit and damage handlers.
- `CommandListener`: the command filter.

The model is a functional state machine, and the proofs are about that machine.

## Layout

| file | module | contents |
|---|---|---|
| types.dfy | `Types` | player / request / session ids, `Option`, notices (recipient and template key) |
| requests.dfy | `Requests` | `DuelRequest`, id-based equality |
| sessions.dfy | `Sessions` | `DuelSession`, `Start`/`End`, opponent lookup |
| economy.dfy | `Economy` | ledger, `HasEnoughMoney`, `TransferMoney` with its three outcomes |
| registry.dfy | `Registry` | the two request indexes: insert, remove with empty-bucket cleanup |
| manager_state.dfy | `ManagerState` | the coordinator state, its invariant `Valid`, the queries |
| duel_manager.dfy | `DuelManager` | create / accept / expire / countdown / end / quit / cancel-all |
| manager_invariant.dfy | `ManagerInvariant` | every operation preserves `Valid` |
| manager_properties.dfy | `ManagerProperties` | settlement, idempotence, forfeits, the request round trip |
| listeners.dfy | `DuelListener` | damage, death and quit handlers |
| commands.dfy | `CommandListener` | base-command extraction and the allow list |
| lifecycle.dfy | `Lifecycle` | arbitrary event sequences; ended duels stay ended |

## Modelling decisions

- **UUIDs.** Ids are natural numbers drawn from two counters in the state. A fresh
  `UUID.randomUUID()` becomes the next counter value, and the invariant keeps every
  stored id below its counter.
- **Sessions.** A session is a value stored in `sessions`, keyed by its id.
  `activeDuels` maps a player to a session id. Java compares sessions by id, so this
  is the same comparison (`StoredSessionsIdentifiedById`).
- **Scheduled tasks.** A scheduled task is a `Job` in the state's `jobs` set: a
  request expiry, one countdown tick, or the end of the countdown. Each job carries
  the data its Java lambda captured. Cancelling a task removes its job. The scheduler
  is the `Timer` event, which may run any pending job at any time. Delays and their
  order are not modelled, so every interleaving is covered.
- **Java doubles.** Stakes and balances are integers. The economy provider is a
  ledger map. Each provider call's success is an input (`LedgerReplies`), because the
  provider is outside the plugin.
- **Proximity.** The world and distance check `isPlayerInRange` is a boolean input of
  create and accept.
- **Notifications.** A notification is a recipient plus a template key. Placeholders,
  message text and the online check before sending are not modelled.
- **Pending-request lookup.** `getPendingRequest` returns the first match in
  `HashSet` iteration order, which Java leaves unspecified. The model returns the
  match with the smallest id. The two choices differ only when a sender has
  challenged the same target more than once, which `RepeatedChallengeIsDistinct`
  shows is possible. Properties that depend on the choice, such as
  `ChallengeThenAccept`, assume a single request between the two players.
- **Lower-casing.** `toLowerCase` is modelled for ASCII letters only.

### Notes on the code's behaviour

Each item below is a fact about the Java code that the model reproduces.

- **Countdown tasks on early end.** `endDuel` and `cancelAllDuels` never cancel
  countdown tasks. Each tick and the start task re-check `isActive()` when they fire
  (DuellManager.java:243, 262). In the model, `Tick` and `Begin` jobs stay scheduled,
  and `CountdownTick` and `BeginDuel` do nothing for an ended session.
  `EndedDuringCountdownNeverStarts` proves that an ended duel is never started.
- **Quit notifications.** `handlePlayerQuit` removes the player's sent and received
  requests without notifying anybody (DuellManager.java:365-401).
- **Quit outside a duel.** `onPlayerQuit` calls `handlePlayerQuit` only for a player
  in a duel (DuellListener.java:57). Any other player's requests stay until they
  expire (`OnPlayerQuit`).
- **Accepting while in a duel.** `acceptRequest` and `startDuel` do not check whether
  either party is already in a duel. The only caller, the accept command, checks both
  players before calling `acceptRequest` (DuellCommand.java:79-100). The model makes
  this a precondition of `AcceptRequest` and of the `AcceptChallenge` event.
- **Projectiles.** The damage handler acts only when the damager itself is a player
  (DuellListener.java:66). For an arrow or any other projectile the damager is the
  projectile, even when a player shot it, so projectile damage is never cancelled: a
  duel partner's arrows get through during the countdown, and an outsider's arrows
  reach a duelling player. The model's `OtherEntity` covers every such damager.
- **Self-kill.** A player whose recorded killer is themselves is "in the same duel" as
  the killer. The duel is then ended with that player as both winner and loser, and
  the opponent receives neither a message nor the stake
  (`SelfKillLeavesOpponentEmptyHanded`).

## Model

| member | source | states |
|---|---|---|
| Requests.SameRequestContract | src/main/java/de/dasjeff/duellSystem/model/DuellRequest.java:79-90 | requests equal by id hash equally; equality is symmetric; with the other fields equal, id equality is value equality |
| Sessions.NewSession | src/main/java/de/dasjeff/duellSystem/model/DuellSession.java:27-35 | a new session is active, not started, and holds both players and the stake |
| Sessions.Start | src/main/java/de/dasjeff/duellSystem/model/DuellSession.java:112-115 | `start` sets `started` and changes no other field |
| Sessions.End | src/main/java/de/dasjeff/duellSystem/model/DuellSession.java:120-123 | `end` clears `active` and changes no other field |
| Sessions.OpponentId | src/main/java/de/dasjeff/duellSystem/model/DuellSession.java:138-146 | an opponent exists exactly for a participant and is the other participant |
| Sessions.OpponentIsInvolution | src/main/java/de/dasjeff/duellSystem/model/DuellSession.java:138-146 | with distinct participants, the opponent's opponent is the player again |
| Sessions.SameSessionContract | src/main/java/de/dasjeff/duellSystem/model/DuellSession.java:157-168 | equal sessions hash equally; starting or ending keeps a session equal to itself |
| Sessions.EndIsTerminal | src/main/java/de/dasjeff/duellSystem/model/DuellSession.java:112-123 | after `end`, no series of `start`/`end` calls makes the session active or changes anything but `started` |
| Economy.Debit | src/main/java/de/dasjeff/duellSystem/managers/EconomyManager.java:55 | a withdrawal lowers exactly one balance by the amount |
| Economy.Credit | src/main/java/de/dasjeff/duellSystem/managers/EconomyManager.java:61-65 | a deposit raises exactly one balance by the amount |
| Economy.TransferMoney | src/main/java/de/dasjeff/duellSystem/managers/EconomyManager.java:48-76 | for each outcome of withdraw / deposit / refund: the calls made, the balances after, the log lines in order, and the result; every failure logs a warning, a refunded deposit failure adds an info line, and a severe line appears exactly when the refund fails |
| Economy.TransferConservesMoney | src/main/java/de/dasjeff/duellSystem/managers/EconomyManager.java:48-76 | third parties are untouched and the two parties' total is conserved, except that a failed refund loses exactly the stake |
| Economy.HasEnoughMoneyIff | src/main/java/de/dasjeff/duellSystem/managers/EconomyManager.java:31-39 | non-positive amounts are always affordable; a positive amount is affordable iff negative balances are allowed or the balance covers it |
| Economy.AffordableStakeKeepsBalance | src/main/java/de/dasjeff/duellSystem/managers/EconomyManager.java:31-39 | with negative balances disallowed, a stake that passed the check never drives the loser below zero |
| Registry.Insert | src/main/java/de/dasjeff/duellSystem/managers/DuellManager.java:71-72 | the bucket of the key gains the request; every other bucket is unchanged |
| Registry.Unindex | src/main/java/de/dasjeff/duellSystem/managers/DuellManager.java:174-192 | the request leaves its bucket, an emptied bucket is dropped, and an absent request changes nothing |
| Registry.UnindexAll | src/main/java/de/dasjeff/duellSystem/managers/DuellManager.java:366-401 | every bucket loses exactly the given requests, and no empty bucket remains |
| ManagerState.Init | src/main/java/de/dasjeff/duellSystem/managers/DuellManager.java:29-37 | the new manager is empty and satisfies the invariant |
| ManagerState.InDuelIffLiveSession | src/main/java/de/dasjeff/duellSystem/managers/DuellManager.java:409-411 | in a valid state, `isInDuel` holds exactly for participants of a live session |
| ManagerState.SameDuelIffSharedSession | src/main/java/de/dasjeff/duellSystem/managers/DuellManager.java:455-470 | `areInSameDuel` holds exactly when one live session holds both players; it is symmetric, and both players agree on `isDuelInProgress` |
| ManagerState.RegisteredRequestsIdentifiedById | src/main/java/de/dasjeff/duellSystem/model/DuellRequest.java:79-85 | among registered requests, id equality (Java `equals`) coincides with value equality |
| ManagerState.StoredSessionsIdentifiedById | src/main/java/de/dasjeff/duellSystem/model/DuellSession.java:157-163 | comparing registry entries by session id is comparing the sessions with `equals` |
| ManagerState.SmallestIdExists | src/main/java/de/dasjeff/duellSystem/managers/DuellManager.java:440-444 | every non-empty set of matching requests has a member with the smallest id |
| ManagerState.GetPendingRequest | src/main/java/de/dasjeff/duellSystem/managers/DuellManager.java:419-447 | a request is found exactly when `hasPendingRequest` holds; it is registered with the right sender and target and sits in both indexes |
| DuelManager.CreateRequest | src/main/java/de/dasjeff/duellSystem/managers/DuellManager.java:44-125 | success iff both players can afford the stake and are in range; a failure changes nothing and tells only the sender, with the message of the first guard that failed; on success a fresh request sits in both indexes with its expiry stored and scheduled, and the sender and the target are told (the stake variants when the stake is positive) |
| DuelManager.ExpireRequest | src/main/java/de/dasjeff/duellSystem/managers/DuellManager.java:75-105 | the request leaves both indexes and others stay; its task entry is dropped; the sender is told only if something was removed; an already-removed request leaves the indexes alone |
| DuelManager.CancelTimeout | src/main/java/de/dasjeff/duellSystem/managers/DuellManager.java:194-198 | the task entry is dropped and its job unscheduled, and nothing else in the state changes; without an entry nothing changes |
| DuelManager.CountdownJobs | src/main/java/de/dasjeff/duellSystem/managers/DuellManager.java:240-276 | the countdown schedules exactly one tick for each second from 1 to the duration plus the begin task, all for the session, and nothing else |
| DuelManager.StartDuel | src/main/java/de/dasjeff/duellSystem/managers/DuellManager.java:219-229 | a fresh session is stored, both players map to it, and the countdown jobs are added; the request indexes and ledger are untouched |
| DuelManager.AcceptRequest | src/main/java/de/dasjeff/duellSystem/managers/DuellManager.java:133-211 | success iff a request exists, the players are in range, and both can afford it; failure changes nothing; success removes the request, cancels its expiry, puts both players in one new counting-down session with the request's stake, schedules exactly that session's countdown in place of the expiry, and tells both players |
| DuelManager.CountdownTick | src/main/java/de/dasjeff/duellSystem/managers/DuellManager.java:242-257 | a tick never changes state; for a live session both players get the countdown message and title, for an ended one nobody is told anything |
| DuelManager.BeginDuel | src/main/java/de/dasjeff/duellSystem/managers/DuellManager.java:261-276 | the session becomes started iff it is still active, and both players then get the start message and title; an ended session is left exactly as it is and nobody is told; no other session changes |
| DuelManager.FireJob | src/main/java/de/dasjeff/duellSystem/managers/DuellManager.java:75-276 | a job that runs is no longer pending; an expiry withdraws its request and tells the sender; a tick changes nothing else and counts down to a live session's players; the begin task starts a live session, tells its players and changes nothing else |
| DuelManager.FindSession | src/main/java/de/dasjeff/duellSystem/managers/DuellManager.java:286-290 | a session is found iff winner or loser is registered; the winner's registration is used when present, the loser's otherwise |
| DuelManager.EndDuel | src/main/java/de/dasjeff/duellSystem/managers/DuellManager.java:284-341 | without a session nothing happens; otherwise the session is ended, both its participants and no one else are deregistered, a friendly stake leaves the ledger alone, and the requests and tasks are untouched |
| DuelManager.CancelTimeouts | src/main/java/de/dasjeff/duellSystem/managers/DuellManager.java:369-372 | exactly the tasks of the given requests are dropped and unscheduled |
| DuelManager.WithdrawReceived | src/main/java/de/dasjeff/duellSystem/managers/DuellManager.java:366-382 | exactly the requests the player received leave both indexes; their task entries are dropped and their expiry jobs unscheduled, other task entries stay; duels and ledger unchanged |
| DuelManager.WithdrawSent | src/main/java/de/dasjeff/duellSystem/managers/DuellManager.java:385-401 | exactly the requests the player sent leave both indexes; their task entries are dropped and their expiry jobs unscheduled, other task entries stay; duels and ledger unchanged |
| DuelManager.PurgeRequestsOf | src/main/java/de/dasjeff/duellSystem/managers/DuellManager.java:365-401 | exactly the requests involving the player leave both indexes, which stay consistent; their task entries are dropped and their expiry jobs unscheduled, other task entries stay (the full invariant: `ManagerInvariant.PurgePreservesValid`) |
| DuelManager.ExpiriesCancelled | src/main/java/de/dasjeff/duellSystem/managers/DuellManager.java:369-372 | under the task invariant, cancelling the stored tasks of registered requests unschedules exactly their expiry jobs and nothing else |
| DuelManager.PurgeKeepsOtherTasks | src/main/java/de/dasjeff/duellSystem/managers/DuellManager.java:365-401 | under the invariant, a registered request keeps its timeout task through the purge iff it does not involve the player |
| DuelManager.PurgeCancelsExactlyExpiries | src/main/java/de/dasjeff/duellSystem/managers/DuellManager.java:365-401 | under the task invariant, the purge unschedules exactly the expiry jobs of the player's requests; countdown jobs and other expiries stay |
| DuelManager.HandlePlayerQuit | src/main/java/de/dasjeff/duellSystem/managers/DuellManager.java:347-402 | all requests involving the player are gone with their timeout tasks and expiry jobs, all other requests, tasks and jobs stay (countdown jobs of every session included); a player outside a duel changes nothing else and is not told anything |
| DuelManager.CancelAllDuels | src/main/java/de/dasjeff/duellSystem/managers/DuellManager.java:473-493 | all four maps are cleared, every registered session is ended without settlement, other sessions are kept, expiry jobs are unscheduled, and the ledger is untouched |
| ManagerInvariant.DistinctRequestsDistinctIds | src/main/java/de/dasjeff/duellSystem/model/DuellRequest.java:23-28 | distinct registered requests have distinct ids |
| ManagerInvariant.IndexesValidFromContents | src/main/java/de/dasjeff/duellSystem/managers/DuellManager.java:20-21 | index consistency follows from bucket contents alone |
| ManagerInvariant.CreatePreservesValid | src/main/java/de/dasjeff/duellSystem/managers/DuellManager.java:44-125 | creating a request preserves the invariant |
| ManagerInvariant.CreateKeepsIndexes | src/main/java/de/dasjeff/duellSystem/managers/DuellManager.java:71-72 | inserting into both indexes keeps them consistent |
| ManagerInvariant.CreateKeepsTasks | src/main/java/de/dasjeff/duellSystem/managers/DuellManager.java:75-107 | storing and scheduling the expiry keeps the task invariant |
| ManagerInvariant.AcceptPreservesValid | src/main/java/de/dasjeff/duellSystem/managers/DuellManager.java:133-229 | accepting preserves the invariant |
| ManagerInvariant.AcceptKeepsIndexes | src/main/java/de/dasjeff/duellSystem/managers/DuellManager.java:174-192 | removing the accepted request keeps the indexes consistent |
| ManagerInvariant.AcceptKeepsTasks | src/main/java/de/dasjeff/duellSystem/managers/DuellManager.java:194-198 | cancelling the accepted request's expiry keeps the task invariant |
| ManagerInvariant.AcceptKeepsSessions | src/main/java/de/dasjeff/duellSystem/managers/DuellManager.java:219-229 | registering the new session keeps the session invariant when neither player was in a duel |
| ManagerInvariant.EndDuelPreservesValid | src/main/java/de/dasjeff/duellSystem/managers/DuellManager.java:284-341 | ending a duel preserves the invariant |
| ManagerInvariant.FireJobPreservesValid | src/main/java/de/dasjeff/duellSystem/managers/DuellManager.java:75-105 | running any pending task preserves the invariant |
| ManagerInvariant.ExpireKeepsIndexes | src/main/java/de/dasjeff/duellSystem/managers/DuellManager.java:76-94 | the expiry's removal keeps the indexes consistent |
| ManagerInvariant.ExpireKeepsTasks | src/main/java/de/dasjeff/duellSystem/managers/DuellManager.java:96 | the expiry's task removal keeps the task invariant |
| ManagerInvariant.BeginKeepsValid | src/main/java/de/dasjeff/duellSystem/managers/DuellManager.java:261-276 | the begin task preserves the invariant |
| ManagerInvariant.PurgePreservesValid | src/main/java/de/dasjeff/duellSystem/managers/DuellManager.java:365-401 | purging a player's requests preserves the invariant |
| ManagerInvariant.WithdrawReceivedPreservesValid | src/main/java/de/dasjeff/duellSystem/managers/DuellManager.java:366-382 | purging received requests preserves the invariant |
| ManagerInvariant.WithdrawSentPreservesValid | src/main/java/de/dasjeff/duellSystem/managers/DuellManager.java:385-401 | purging sent requests preserves the invariant |
| ManagerInvariant.TasksAfterCancel | src/main/java/de/dasjeff/duellSystem/managers/DuellManager.java:369-372 | removing requests together with their tasks keeps the task invariant |
| ManagerInvariant.HandlePlayerQuitPreservesValid | src/main/java/de/dasjeff/duellSystem/managers/DuellManager.java:347-402 | handling a quit preserves the invariant |
| ManagerInvariant.CancelAllPreservesValid | src/main/java/de/dasjeff/duellSystem/managers/DuellManager.java:473-493 | cancelling everything preserves the invariant and leaves no active session |
| ManagerProperties.EndDuelSettlesStake | src/main/java/de/dasjeff/duellSystem/managers/DuellManager.java:284-313 | for two distinct players of one live duel: both leave the registry, the session ends, a positive stake goes from loser to winner, a friendly duel moves nothing, and the result notices match |
| ManagerProperties.EndDuelIdempotent | src/main/java/de/dasjeff/duellSystem/managers/DuellManager.java:292-295 | for a winner and loser who are not registered in two different duels (every caller's case), a second `endDuel` with the same players changes nothing and sends nothing |
| ManagerProperties.EndDuelSettlesOnce | src/main/java/de/dasjeff/duellSystem/managers/DuellManager.java:286-295 | after a duel is ended, `endDuel` in either order of the players leaves the ledger alone |
| ManagerProperties.QuitForfeitsToOpponent | src/main/java/de/dasjeff/duellSystem/managers/DuellManager.java:349-363 | a quit in a duel is `endDuel(opponent, player)` followed by the player-left notice; neither player remains registered |
| ManagerProperties.QuitPaysOpponent | src/main/java/de/dasjeff/duellSystem/managers/DuellManager.java:349-354 | the quitter's positive stake is transferred to the opponent |
| ManagerProperties.FriendlyChallengeNeedsOnlyProximity | src/main/java/de/dasjeff/duellSystem/managers/DuellManager.java:44-65 | a friendly challenge succeeds exactly when the players are in range |
| ManagerProperties.RepeatedChallengeIsDistinct | src/main/java/de/dasjeff/duellSystem/managers/DuellManager.java:68-72 | a new request's id is unused, so repeating a challenge registers a second, distinct request |
| ManagerProperties.ChallengeThenAccept | src/main/java/de/dasjeff/duellSystem/managers/DuellManager.java:44-229 | challenge then accept puts both players in one fresh session with the challenge's stake, and no request from the sender to the target is left (a request the target had sent the sender stays, as in Java) |
| ManagerProperties.CreatedRequestIsOnlyMatch | src/main/java/de/dasjeff/duellSystem/managers/DuellManager.java:437-447 | with no earlier request between the players, the lookup after a challenge finds the new request |
| ManagerProperties.AcceptDisarmsExpiry | src/main/java/de/dasjeff/duellSystem/managers/DuellManager.java:194-198 | after accepting, the expiry job is gone, and a late run of its callback changes no index or duel and sends nothing |
| ManagerProperties.ChallengeExpires | src/main/java/de/dasjeff/duellSystem/managers/DuellManager.java:75-105 | a challenge whose expiry runs is gone, and the sender gets exactly the expiry notice |
| ManagerProperties.CancelAllIdempotent | src/main/java/de/dasjeff/duellSystem/managers/DuellManager.java:473-493 | cancelling everything twice is the same as once |
| ManagerProperties.CancelAllOnIdleIsNoop | src/main/java/de/dasjeff/duellSystem/managers/DuellManager.java:473-493 | with nothing registered, cancelling everything changes nothing |
| ManagerProperties.CancelAllLeavesNothing | src/main/java/de/dasjeff/duellSystem/managers/DuellManager.java:473-493 | afterwards no one is in a duel or has a request, no expiry is scheduled, and no session is active |
| DuelListener.OnEntityDamage | src/main/java/de/dasjeff/duellSystem/listeners/DuellListener.java:64-83 | the handler never un-cancels, ignores non-player damage, and ignores fights between players outside duels |
| DuelListener.DamageAllowedIff | src/main/java/de/dasjeff/duellSystem/listeners/DuellListener.java:64-83 | player-on-player damage goes through iff neither is in a live session, or both are in the same started one |
| DuelListener.DamageRuleSymmetric | src/main/java/de/dasjeff/duellSystem/listeners/DuellListener.java:72-82 | the outcome does not depend on who hits whom |
| DuelListener.NoDamageDuringCountdown | src/main/java/de/dasjeff/duellSystem/listeners/DuellListener.java:72-77 | duel partners cannot hurt each other before the countdown ends |
| DuelListener.OnPlayerDeath | src/main/java/de/dasjeff/duellSystem/listeners/DuellListener.java:28-50 | the handler only turns keeping on: inventory and level are kept iff the event already kept them or the player was in a duel, and a duel death drops no items and no experience; afterwards the player is in no duel and their session has ended; deaths outside duels change neither the manager nor the event |
| DuelListener.DeathByPartnerPaysKiller | src/main/java/de/dasjeff/duellSystem/listeners/DuellListener.java:39-42 | killed by the duel partner: the partner wins, collects a positive stake and gets the win notices |
| DuelListener.OtherDeathForfeits | src/main/java/de/dasjeff/duellSystem/listeners/DuellListener.java:35-38 | any other death in a duel is a forfeit to the opponent, as on a quit |
| DuelListener.SelfKillLeavesOpponentEmptyHanded | src/main/java/de/dasjeff/duellSystem/listeners/DuellListener.java:35-42 | a player recorded as their own killer is both winner and loser; the opponent gets no notice and no money |
| DuelListener.OnPlayerQuit | src/main/java/de/dasjeff/duellSystem/listeners/DuellListener.java:53-61 | afterwards the player is in no duel; outside a duel nothing changes; inside one, the player is handed to `handlePlayerQuit`: the duel is forfeited to the opponent, who gets the settlement and the player-left message, and no request to or from the player remains |
| CommandListener.LowerChar | src/main/java/de/dasjeff/duellSystem/listeners/CommandListener.java:51 | upper-case ASCII letters map to lower case; every other character is unchanged (Java also lower-cases non-ASCII capitals, listed under Left out) |
| CommandListener.ToLower | src/main/java/de/dasjeff/duellSystem/listeners/CommandListener.java:51-53 | lower-casing keeps the length and lower-cases each character |
| CommandListener.ToLowerKeepsSpaces | src/main/java/de/dasjeff/duellSystem/listeners/CommandListener.java:49-53 | lower-casing neither adds nor removes spaces |
| CommandListener.ToLowerIdempotent | src/main/java/de/dasjeff/duellSystem/listeners/CommandListener.java:29-34 | lower-casing twice is lower-casing once |
| CommandListener.IndexOf | src/main/java/de/dasjeff/duellSystem/listeners/CommandListener.java:49 | returns -1 iff the character is absent, otherwise its first position |
| CommandListener.BaseCommand | src/main/java/de/dasjeff/duellSystem/listeners/CommandListener.java:45-58 | the empty word unless the line is a slash plus at least one character; otherwise the lower-cased text up to the first space or the end, which contains no space |
| CommandListener.BaseCommandAt | src/main/java/de/dasjeff/duellSystem/listeners/CommandListener.java:48-54 | the base command is fixed by where the first word ends |
| CommandListener.BaseCommandOfComposed | src/main/java/de/dasjeff/duellSystem/listeners/CommandListener.java:48-54 | a slash, a space-free word, and optionally a space and arguments yield the lower-cased word |
| CommandListener.BaseCommandOfWord | src/main/java/de/dasjeff/duellSystem/listeners/CommandListener.java:50-51 | a slash plus a non-empty space-free word yields the lower-cased word |
| CommandListener.BaseCommandOfWordAndArguments | src/main/java/de/dasjeff/duellSystem/listeners/CommandListener.java:52-53 | a slash, a word, a space and arguments yield the lower-cased word |
| CommandListener.OnCommand | src/main/java/de/dasjeff/duellSystem/listeners/CommandListener.java:38-65 | an already-cancelled event is untouched; players outside duels and admins are never blocked; a block sends exactly the command-blocked notice |
| CommandListener.PermittedIff | src/main/java/de/dasjeff/duellSystem/listeners/CommandListener.java:29-61 | a line is permitted iff it is a slash and a space-free word lower-casing to duel, duell, msg or tell, then the end or a space |
| CommandListener.WordIsPermitted | src/main/java/de/dasjeff/duellSystem/listeners/CommandListener.java:29-61 | an allowed word after the slash is permitted, alone or with arguments |
| CommandListener.BlockedIffNotPermitted | src/main/java/de/dasjeff/duellSystem/listeners/CommandListener.java:61-64 | a dueling non-admin's fresh command is cancelled iff it is not permitted |
| CommandListener.CommandCheckIgnoresCase | src/main/java/de/dasjeff/duellSystem/listeners/CommandListener.java:51-61 | a command word and its lower-case form get the same outcome |
| CommandListener.MessageCommandPasses | src/main/java/de/dasjeff/duellSystem/listeners/CommandListener.java:29-34 | `/MSG Alex hi` passes for a dueling player |
| CommandListener.OtherCommandBlocked | src/main/java/de/dasjeff/duellSystem/listeners/CommandListener.java:61-64 | `/spawn` is blocked for a dueling player |
| CommandListener.EmptyCommandBlocked | src/main/java/de/dasjeff/duellSystem/listeners/CommandListener.java:55-58 | `/` and `/ msg` have no base command and are blocked |
| Lifecycle.Apply | src/main/java/de/dasjeff/duellSystem/listeners/DuellListener.java:28-61 | every enabled event keeps the invariant |
| Lifecycle.Run | src/main/java/de/dasjeff/duellSystem/managers/DuellManager.java:29-493 | every sequence of events from a valid state ends in a valid state |
| Lifecycle.EndDuelFreezesEnded | src/main/java/de/dasjeff/duellSystem/managers/DuellManager.java:292-296 | `endDuel` never changes or forgets an ended session |
| Lifecycle.QuitFreezesEnded | src/main/java/de/dasjeff/duellSystem/managers/DuellManager.java:347-402 | a quit never changes or forgets an ended session |
| Lifecycle.CreateFreezesEnded | src/main/java/de/dasjeff/duellSystem/managers/DuellManager.java:44-125 | a challenge never touches sessions |
| Lifecycle.AcceptFreezesEnded | src/main/java/de/dasjeff/duellSystem/managers/DuellManager.java:133-229 | accepting only adds a session |
| Lifecycle.FireJobFreezesEnded | src/main/java/de/dasjeff/duellSystem/managers/DuellManager.java:242-276 | a countdown task never changes an ended session |
| Lifecycle.DeathFreezesEnded | src/main/java/de/dasjeff/duellSystem/listeners/DuellListener.java:28-50 | a death never changes or forgets an ended session |
| Lifecycle.ShutdownFreezesEnded | src/main/java/de/dasjeff/duellSystem/managers/DuellManager.java:476-481 | cancelling everything never changes an ended session |
| Lifecycle.ApplyFreezesEnded | src/main/java/de/dasjeff/duellSystem/managers/DuellManager.java:243-296 | no single event changes or forgets an ended session |
| Lifecycle.RunFreezesEnded | src/main/java/de/dasjeff/duellSystem/managers/DuellManager.java:243-296 | over any run, ended sessions stay exactly as they ended |
| Lifecycle.EndedDuringCountdownNeverStarts | src/main/java/de/dasjeff/duellSystem/managers/DuellManager.java:261-264 | a duel ended during its countdown never starts, whatever tasks fire later |
| Lifecycle.OneLiveSessionPerPlayer | src/main/java/de/dasjeff/duellSystem/managers/DuellManager.java:219-229 | in every reachable state a player is in at most one live session, the one registered for them |
| Lifecycle.CountdownEndStartsDuel | src/main/java/de/dasjeff/duellSystem/managers/DuellManager.java:261-276 | the end of a live session's countdown starts it, keeps both players registered to it and tells them |
| Lifecycle.AcceptedDuelStartsAfterCountdown | src/main/java/de/dasjeff/duellSystem/managers/DuellManager.java:133-276 | an accepted challenge schedules its duel's start, and running that task starts the duel between the two players |

## Left out

- Message texts, placeholders and the online check before sending (`MessageManager`): notices are modelled by recipient and template key only.
- Configuration loading (`ConfigManager`): the countdown duration and the negative-balance flag are a `Config` value. The request timeout and proximity radius only feed the scheduler and the range check, which are inputs.
- Bet parsing, minimum and maximum bets, self-challenge and in-duel checks of the command layer (`DuellCommand`): these sit outside the manager.
- World protection (`DuellWorldListener`), region override (`RegionListener`) and plugin wiring (`DuellSystem`): they only read the manager's queries.
- `isPlayerInRange`: the world comparison and floating-point distance are a boolean input.
- Timestamps (`createdAt`, `startedAt`, `endedAt`): never read by the core.
- Tick delays and their ordering: the scheduler may run any pending job, so all orders are covered.
- The dropped items of a death are a count of stacks; their contents are not modelled.
- Concurrency: the plugin serialises all calls on the server thread; the model is sequential.
- CommandListener.ToLower: ASCII letters only; Java's Unicode lower-casing of other letters is not modelled.
- CommandListener.LowerChar: maps only `A`-`Z`; every non-ASCII upper-case letter, which Java's `toLowerCase` lower-cases, is left unchanged. The only ASCII letters Java's lower-casing produces from non-ASCII characters are `i` (from `İ`) and `k` (from the Kelvin sign), and no allow-listed word contains either, so the filter's decisions are not affected.
- DuelManager.EndDuel: the log lines of the stake transfer, including the severe line for a failed refund, are not passed on in the step; `Economy.TransferMoney` states them, and `EndDuel` keeps only the ledger it produces.
- DuelManager.AcceptRequest: requires that neither player is already in a duel. The command layer guarantees this before calling `acceptRequest`; a call that breaks it is not modelled.
- ManagerState.GetPendingRequest: returns the match with the smallest id rather than Java's unspecified `HashSet` order; its contract says only that some matching request is found.
- Java doubles: stakes and balances are unbounded integers, so rounding in the economy provider is not modelled.

=== FILE: commands.dfy ===
/** `CommandListener`: while a player is registered in a duel, only a short list of
    commands may be typed; anything else is cancelled with a notice, unless the player
    holds the admin permission. */
module CommandListener {
  import opened Types
  import opened ManagerState

  /** The base commands a dueling player may still use (already lower-case). */
  const AllowedBaseCommands: set<string> := {"duel", "duell", "msg", "tell"}

  /** Lower-casing of one character, for the ASCII letters. */
  function LowerChar(c: char): (r: char)
    ensures 'A' <= c <= 'Z' ==> 'a' <= r <= 'z' && r as int - c as int == 'a' as int - 'A' as int
    ensures !('A' <= c <= 'Z') ==> r == c
  {
    if 'A' <= c <= 'Z' then (c as int - 'A' as int + 'a' as int) as char else c
  }

  /** `String.toLowerCase`, character by character. */
  function ToLower(s: string): (r: string)
    ensures |r| == |s|
    ensures forall i :: 0 <= i < |s| ==> r[i] == LowerChar(s[i])
  {
    if s == [] then [] else [LowerChar(s[0])] + ToLower(s[1..])
  }

  /** Lower-casing never produces or removes a space. */
  lemma ToLowerKeepsSpaces(s: string)
    ensures ' ' in ToLower(s) <==> ' ' in s
  {
    if ' ' in s {
      var i :| 0 <= i < |s| && s[i] == ' ';
      assert ToLower(s)[i] == ' ';
    }
    if ' ' in ToLower(s) {
      var i :| 0 <= i < |s| && ToLower(s)[i] == ' ';
      assert s[i] == ' ';
    }
  }

  /** Lower-casing twice is lower-casing once. */
  lemma ToLowerIdempotent(s: string)
    ensures ToLower(ToLower(s)) == ToLower(s)
  {
    assert forall i :: 0 <= i < |s| ==> ToLower(ToLower(s))[i] == ToLower(s)[i];
  }

  /** `String.indexOf(c)`: the first position holding `c`, or -1. */
  function IndexOf(s: string, c: char): (k: int)
    ensures -1 <= k < |s|
    ensures k == -1 <==> c !in s
    ensures k >= 0 ==> s[k] == c && c !in s[..k]
  {
    if s == [] then -1
    else if s[0] == c then 0
    else
      var k := IndexOf(s[1..], c);
      if k == -1 then -1 else k + 1
  }

  /** The base command of a chat line: for a line of at least two characters starting with
      '/', the lower-cased text between the slash and the first space (or the end);
      for anything else the empty word, which is never allowed. */
  function BaseCommand(message: string): (b: string)
    ensures ' ' !in b
    ensures !(|message| > 1 && message[0] == '/') ==> b == ""
    ensures |message| > 1 && message[0] == '/' ==>
      && |b| < |message|
      && b == ToLower(message[1..|b| + 1])
      && (|b| + 1 == |message| || message[|b| + 1] == ' ')
  {
    if |message| > 1 && message[0] == '/' then
      var firstSpace := IndexOf(message, ' ');
      var word := if firstSpace == -1 then message[1..] else message[1..firstSpace];
      assert ' ' !in word by {
        if firstSpace != -1 {
          assert word == message[..firstSpace][1..];
        }
      }
      ToLowerKeepsSpaces(word);
      ToLower(word)
    else
      ""
  }

  /** A command line built as slash, word, and optionally a space and arguments has the
      lower-cased word as its base command. */
  lemma BaseCommandOfComposed(word: string, rest: string)
    requires ' ' !in word
    ensures word != [] ==> BaseCommand("/" + word) == ToLower(word)
    ensures BaseCommand("/" + word + " " + rest) == ToLower(word)
  {
    if word != [] {
      BaseCommandOfWord(word);
    }
    BaseCommandOfWordAndArguments(word, rest);
  }

  /** The base command is fixed by where the first word ends. */
  lemma BaseCommandAt(message: string, k: nat)
    requires |message| > 1 && message[0] == '/'
    requires 1 <= k <= |message| && ' ' !in message[1..k]
    requires k == |message| || message[k] == ' '
    ensures BaseCommand(message) == ToLower(message[1..k])
  {
    var b := BaseCommand(message);
    var e := |b| + 1;
    ToLowerKeepsSpaces(message[1..e]);
  }

  lemma BaseCommandOfWord(word: string)
    requires ' ' !in word && word != []
    ensures BaseCommand("/" + word) == ToLower(word)
  {
    var line := "/" + word;
    assert line[1..|line|] == word;
    BaseCommandAt(line, |line|);
  }

  lemma BaseCommandOfWordAndArguments(word: string, rest: string)
    requires ' ' !in word
    ensures BaseCommand("/" + word + " " + rest) == ToLower(word)
  {
    var line := "/" + word + " " + rest;
    assert line[1..|word| + 1] == word;
    assert line[|word| + 1] == ' ';
    BaseCommandAt(line, |word| + 1);
  }

  /** Outcome of the command pre-process handler: the event's cancelled flag and the
      notices sent. */
  datatype CommandOutcome = CommandOutcome(cancelled: bool, notices: seq<Notice>)

  /** Whether a dueling non-admin may send this line. */
  predicate Permitted(message: string)
  {
    BaseCommand(message) in AllowedBaseCommands
  }

  /** `onPlayerCommandPreprocess`. Registered with `ignoreCancelled`, so an already
      cancelled event never reaches it. A blocked line is cancelled and the sender gets
      the "command blocked" notice. */
  function OnCommand(st: Coordinator, p: PlayerId, isAdmin: bool, message: string, cancelled: bool): (r: CommandOutcome)
    ensures cancelled ==> r == CommandOutcome(true, [])
    ensures !InDuel(st, p) || isAdmin ==> r == CommandOutcome(cancelled, [])
    ensures !cancelled && r.cancelled ==> InDuel(st, p) && !isAdmin && r.notices == [Message(p, "general.command-blocked")]
    ensures !r.cancelled ==> r.notices == []
  {
    if cancelled then CommandOutcome(true, [])
    else if InDuel(st, p) && !Permitted(message) && !isAdmin then
      CommandOutcome(true, [Message(p, "general.command-blocked")])
    else CommandOutcome(false, [])
  }

  /** For a dueling non-admin, a fresh event goes through exactly when the line is a
      slash and a space-free word that lower-cases to an allowed command, then either the
      end of the line or a space and anything. */
  lemma PermittedIff(message: string)
    ensures Permitted(message) <==>
      || (exists word :: AllowedWord(word) && message == "/" + word)
      || (exists word, rest :: AllowedWord(word) && message == "/" + word + " " + rest)
  {
    if Permitted(message) {
      var b := BaseCommand(message);
      var word := message[1..|b| + 1];
      ToLowerKeepsSpaces(word);
      assert AllowedWord(word);
      if |b| + 1 == |message| {
        assert message == "/" + word;
      } else {
        assert message == "/" + word + " " + message[|b| + 2..];
      }
    }
    if word :| AllowedWord(word) && message == "/" + word {
      WordIsPermitted(word, "");
    }
    if word, rest :| AllowedWord(word) && message == "/" + word + " " + rest {
      WordIsPermitted(word, rest);
    }
  }

  /** A space-free word whose lower-case form is an allowed command. */
  predicate AllowedWord(word: string)
  {
    ' ' !in word && ToLower(word) in AllowedBaseCommands
  }

  /** An allowed word after the slash is permitted, alone or followed by arguments. */
  lemma WordIsPermitted(word: string, rest: string)
    requires AllowedWord(word)
    ensures Permitted("/" + word) && Permitted("/" + word + " " + rest)
  {
    BaseCommandOfComposed(word, rest);
  }

  /** The handler cancels a dueling non-admin's line exactly when it is not permitted. */
  lemma BlockedIffNotPermitted(st: Coordinator, p: PlayerId, message: string)
    requires InDuel(st, p)
    ensures OnCommand(st, p, false, message, false).cancelled <==> !Permitted(message)
  {
  }

  /** The check ignores letter case: a word and its lower-cased form are treated alike. */
  lemma CommandCheckIgnoresCase(st: Coordinator, p: PlayerId, isAdmin: bool, word: string, rest: string, cancelled: bool)
    requires ' ' !in word
    ensures OnCommand(st, p, isAdmin, "/" + word + " " + rest, cancelled)
         == OnCommand(st, p, isAdmin, "/" + ToLower(word) + " " + rest, cancelled)
  {
    ToLowerKeepsSpaces(word);
    BaseCommandOfComposed(word, rest);
    BaseCommandOfComposed(ToLower(word), rest);
    ToLowerIdempotent(word);
  }

  /** A private message passes in any letter case. */
  lemma MessageCommandPasses(st: Coordinator, p: PlayerId)
    requires InDuel(st, p)
    ensures !OnCommand(st, p, false, "/MSG Alex hi", false).cancelled
  {
    assert ToLower("MSG") == "msg" by {
      var t := ToLower("MSG");
      assert t[0] == 'm' && t[1] == 's' && t[2] == 'g';
    }
    assert BaseCommand("/MSG Alex hi") == "msg" by {
      assert "/MSG Alex hi" == "/" + "MSG" + " " + "Alex hi";
      BaseCommandOfWordAndArguments("MSG", "Alex hi");
    }
    assert Permitted("/MSG Alex hi");
  }

  /** Any other command is blocked. */
  lemma OtherCommandBlocked(st: Coordinator, p: PlayerId)
    requires InDuel(st, p)
    ensures OnCommand(st, p, false, "/spawn", false).cancelled
  {
    assert ToLower("spawn") == "spawn" by {
      var t := ToLower("spawn");
      assert t[0] == 's' && t[1] == 'p' && t[2] == 'a' && t[3] == 'w' && t[4] == 'n';
    }
    assert BaseCommand("/spawn") == "spawn" by {
      assert "/spawn" == "/" + "spawn";
      BaseCommandOfComposed("spawn", "");
    }
    assert !Permitted("/spawn");
  }

  /** A lone slash, or a slash followed by a space, has no base command and is blocked. */
  lemma EmptyCommandBlocked(st: Coordinator, p: PlayerId)
    requires InDuel(st, p)
    ensures OnCommand(st, p, false, "/", false).cancelled
    ensures OnCommand(st, p, false, "/ msg", false).cancelled
  {
    assert "/ msg" == "/" + "" + " " + "msg";
    BaseCommandOfComposed("", "msg");
  }
}

=== FILE: duel_manager.dfy ===
/** The operations of `DuellManager` as pure transitions over `Coordinator`, with the
    scheduler's callbacks as separate transitions fired by `FireJob`. */
module DuelManager {
  import opened Types
  import opened Requests
  import opened Sessions
  import opened Economy
  import opened Registry
  import opened ManagerState

  /** The result of an operation that answers true/false. */
  datatype Reply = Reply(ok: bool, next: Coordinator, notices: seq<Notice>)

  /** The result of an operation or callback without an answer. */
  datatype Step = Step(next: Coordinator, notices: seq<Notice>)

  predicate CanAfford(st: Coordinator, cfg: Config, p: PlayerId, bet: int)
  {
    HasEnoughMoney(st.ledger, cfg.allowNegativeBalance, p, bet)
  }

  /** Requests other than `q` are registered in `b` exactly when in `a`, in both indexes. */
  ghost predicate OthersKept(a: Coordinator, b: Coordinator, q: DuelRequest)
  {
    forall x :: x != q ==>
      && (x in Bucket(b.pending, x.target) <==> x in Bucket(a.pending, x.target))
      && (x in Bucket(b.sent, x.sender) <==> x in Bucket(a.sent, x.sender))
  }

  /** The session registry and the ledger are as before. */
  ghost predicate DuelsKept(a: Coordinator, b: Coordinator)
  {
    b.activeDuels == a.activeDuels && b.sessions == a.sessions && b.ledger == a.ledger
  }

  // ------------------------------------------------------------ createRequest

  /** `createRequest(sender, target, bet)`; `inRange` is the proximity check's answer. */
  function CreateRequest(st: Coordinator, cfg: Config, sender: PlayerId, target: PlayerId, bet: int, inRange: bool): (r: Reply)
    // The three guards, in order, each with no effect but a message to the sender.
    ensures r.ok <==> CanAfford(st, cfg, sender, bet) && CanAfford(st, cfg, target, bet) && inRange
    ensures !r.ok ==> r.next == st && |r.notices| == 1 && r.notices[0].to == sender
    // On success a request with a fresh id sits in both indexes, with its expiry scheduled.
    ensures r.ok ==>
      var q := DuelRequest(st.nextRequestId, sender, target, bet);
      && Registered(r.next, q) && q in Bucket(r.next.sent, sender)
      && OthersKept(st, r.next, q)
      && r.next.timeoutTasks == st.timeoutTasks[q.id := Expire(q)]
      && r.next.jobs == st.jobs + {Expire(q)}
      && HasPendingRequest(r.next, target, sender)
      && DuelsKept(st, r.next)
    // The sender learns the outcome; on success the target is told of the challenge.
    ensures bet > 0 && !HasEnoughMoney(st.ledger, cfg.allowNegativeBalance, sender, bet) ==>
      r.notices == [Message(sender, "request.not-enough-money")]
    ensures CanAfford(st, cfg, sender, bet) && !CanAfford(st, cfg, target, bet) ==>
      r.notices == [Message(sender, "request.target-not-enough-money")]
    ensures CanAfford(st, cfg, sender, bet) && CanAfford(st, cfg, target, bet) && !inRange ==>
      r.notices == [Message(sender, "request.too-far-away")]
    ensures r.ok && bet > 0 ==> r.notices == [Message(sender, "request.sent-with-bet"), Message(target, "request.received-with-bet")]
    ensures r.ok && bet <= 0 ==> r.notices == [Message(sender, "request.sent"), Message(target, "request.received")]
  {
    if bet > 0 && !HasEnoughMoney(st.ledger, cfg.allowNegativeBalance, sender, bet) then
      Reply(false, st, [Message(sender, "request.not-enough-money")])
    else if bet > 0 && !HasEnoughMoney(st.ledger, cfg.allowNegativeBalance, target, bet) then
      Reply(false, st, [Message(sender, "request.target-not-enough-money")])
    else if !inRange then
      Reply(false, st, [Message(sender, "request.too-far-away")])
    else
      var q := DuelRequest(st.nextRequestId, sender, target, bet);
      var next := st.(
        pending := Insert(st.pending, target, q),
        sent := Insert(st.sent, sender, q),
        timeoutTasks := st.timeoutTasks[q.id := Expire(q)],
        jobs := st.jobs + {Expire(q)},
        nextRequestId := st.nextRequestId + 1);
      var notices :=
        if bet > 0 then [Message(sender, "request.sent-with-bet"), Message(target, "request.received-with-bet")]
        else [Message(sender, "request.sent"), Message(target, "request.received")];
      Reply(true, next, notices)
  }

  // ------------------------------------------------------------ the expiry callback

  /** The body of the timeout task scheduled by `createRequest` for request `q`: remove `q`
      from both indexes if still there, drop the task entry, and tell the sender only
      when something was actually removed. */
  function ExpireRequest(st: Coordinator, q: DuelRequest): (r: Step)
    ensures q !in Bucket(r.next.pending, q.target) && q !in Bucket(r.next.sent, q.sender)
    ensures OthersKept(st, r.next, q)
    ensures NoEmptyBuckets(st.pending) ==> NoEmptyBuckets(r.next.pending)
    ensures NoEmptyBuckets(st.sent) ==> NoEmptyBuckets(r.next.sent)
    ensures r.next.timeoutTasks == st.timeoutTasks - {q.id}
    ensures r.notices != [] <==> Registered(st, q) || q in Bucket(st.sent, q.sender)
    ensures r.notices != [] ==> r.notices == [Message(q.sender, "request.expired")]
    // Already gone: neither index changes.
    ensures !Registered(st, q) && q !in Bucket(st.sent, q.sender) ==>
      r.next.pending == st.pending && r.next.sent == st.sent
    ensures DuelsKept(st, r.next) && r.next.jobs == st.jobs
  {
    var removedFromPending := q.target in st.pending && q in st.pending[q.target];
    var removedFromSent := q.sender in st.sent && q in st.sent[q.sender];
    var next := st.(
      pending := Unindex(st.pending, q.target, q),
      sent := Unindex(st.sent, q.sender, q),
      timeoutTasks := st.timeoutTasks - {q.id});
    Step(next, if removedFromPending || removedFromSent then [Message(q.sender, "request.expired")] else [])
  }

  // ------------------------------------------------------------ acceptRequest

  /** Cancels and forgets the timeout task stored under `q.id`, if any. */
  function CancelTimeout(st: Coordinator, q: DuelRequest): (r: Coordinator)
    ensures q.id !in r.timeoutTasks
    ensures r.timeoutTasks == st.timeoutTasks - {q.id}
    ensures q.id in st.timeoutTasks ==> r.jobs == st.jobs - {st.timeoutTasks[q.id]}
    ensures q.id !in st.timeoutTasks ==> r == st
    // Requests, duels, sessions and the ledger are untouched.
    ensures r == st.(jobs := r.jobs, timeoutTasks := r.timeoutTasks)
  {
    if q.id in st.timeoutTasks then
      st.(jobs := st.jobs - {st.timeoutTasks[q.id]}, timeoutTasks := st.timeoutTasks - {q.id})
    else st
  }

  /** The tasks `startCountdown` schedules: one tick per remaining second and the start. */
  function CountdownJobs(sid: SessionId, duration: nat): (js: set<Job>)
    ensures Begin(sid) in js
    ensures forall i :: 1 <= i <= duration ==> Tick(sid, i) in js
    ensures forall j :: j in js ==> !j.Expire? && j.session == sid
    // Nothing else: no tick outside the countdown, no task for another session.
    ensures forall j :: j in js <==> j == Begin(sid) || (j.Tick? && j.session == sid && 1 <= j.seconds <= duration)
  {
    (set i: nat | 1 <= i <= duration :: Tick(sid, i)) + {Begin(sid)}
  }

  /** `startDuel`: a new session, registered under both players, with its countdown scheduled. */
  function StartDuel(st: Coordinator, cfg: Config, player1: PlayerId, player2: PlayerId, bet: int): (r: Coordinator)
    ensures st.nextSessionId !in st.sessions ==> st.sessions.Keys < r.sessions.Keys
    ensures r.sessions == st.sessions[st.nextSessionId := NewSession(st.nextSessionId, player1, player2, bet)]
    ensures r.activeDuels == st.activeDuels[player1 := st.nextSessionId][player2 := st.nextSessionId]
    ensures AreInSameDuel(r, player1, player2)
    ensures r.jobs == st.jobs + CountdownJobs(st.nextSessionId, cfg.countdownDuration)
    ensures r.pending == st.pending && r.sent == st.sent && r.timeoutTasks == st.timeoutTasks && r.ledger == st.ledger
  {
    var sid := st.nextSessionId;
    st.(
      sessions := st.sessions[sid := NewSession(sid, player1, player2, bet)],
      activeDuels := st.activeDuels[player1 := sid][player2 := sid],
      jobs := st.jobs + CountdownJobs(sid, cfg.countdownDuration),
      nextSessionId := sid + 1)
  }

  /** `acceptRequest(target, sender)`. The caller has checked that neither player is in a
      duel already; `inRange` is the proximity re-check's answer. */
  function AcceptRequest(st: Coordinator, cfg: Config, target: PlayerId, sender: PlayerId, inRange: bool): (r: Reply)
    requires Valid(st)
    requires !InDuel(st, target) && !InDuel(st, sender)
    ensures !r.ok ==> r.next == st && |r.notices| == 1 && r.notices[0].to == target
    ensures r.ok <==>
      && HasPendingRequest(st, target, sender)
      && inRange
      && CanAfford(st, cfg, sender, GetPendingRequest(st, target, sender).value.bet)
      && CanAfford(st, cfg, target, GetPendingRequest(st, target, sender).value.bet)
    ensures r.ok ==>
      var q := GetPendingRequest(st, target, sender).value;
      var sid := st.nextSessionId;
      // the request is gone from both indexes and its timer is cancelled ...
      && !Registered(r.next, q) && q !in Bucket(r.next.sent, sender)
      && OthersKept(st, r.next, q)
      && q.id !in r.next.timeoutTasks && Expire(q) !in r.next.jobs
      // ... and both players map to one fresh, counting-down session with the request's stake
      && sid !in st.sessions && sid in r.next.sessions
      && r.next.sessions[sid] == NewSession(sid, sender, target, q.bet)
      && (forall x :: x in st.sessions ==> x in r.next.sessions && r.next.sessions[x] == st.sessions[x])
      && r.next.activeDuels == st.activeDuels[sender := sid][target := sid]
      && AreInSameDuel(r.next, sender, target)
      && r.next.ledger == st.ledger
      // ... whose countdown is scheduled in place of the request's expiry,
      && r.next.jobs == st.jobs - {Expire(q)} + CountdownJobs(sid, cfg.countdownDuration)
      // and both players are told.
      && r.notices == [Message(target, "duel.accepted"), Message(sender, "duel.target-accepted")]
  {
    if !HasPendingRequest(st, target, sender) then
      Reply(false, st, [Message(target, "request.no-pending-request")])
    else
      match GetPendingRequest(st, target, sender)
      case None => Reply(false, st, [Message(target, "request.no-pending-request")])
      case Some(q) =>
        if !inRange then
          Reply(false, st, [Message(target, "request.too-far-away")])
        else if q.bet > 0 && !HasEnoughMoney(st.ledger, cfg.allowNegativeBalance, sender, q.bet) then
          Reply(false, st, [Message(target, "request.target-not-enough-money")])
        else if q.bet > 0 && !HasEnoughMoney(st.ledger, cfg.allowNegativeBalance, target, q.bet) then
          Reply(false, st, [Message(target, "request.not-enough-money")])
        else
          var unindexed := st.(pending := Unindex(st.pending, target, q), sent := Unindex(st.sent, sender, q));
          var cancelled := CancelTimeout(unindexed, q);
          Reply(true, StartDuel(cancelled, cfg, sender, target, q.bet),
                [Message(target, "duel.accepted"), Message(sender, "duel.target-accepted")])
  }

  // ------------------------------------------------------------ countdown callbacks

  /** A "seconds remaining" task: silent once the session has ended. */
  function CountdownTick(st: Coordinator, sid: SessionId, seconds: nat): (r: Step)
    requires sid in st.sessions
    ensures r.next == st
    ensures !st.sessions[sid].active ==> r.notices == []
    // A live session's players each get the countdown message and title.
    ensures var s := st.sessions[sid];
      s.active ==> r.notices == [Message(s.player1, "duel.countdown"), Title(s.player1, "countdown"),
                                 Message(s.player2, "duel.countdown"), Title(s.player2, "countdown")]
  {
    var s := st.sessions[sid];
    if !s.active then Step(st, [])
    else Step(st, [Message(s.player1, "duel.countdown"), Title(s.player1, "countdown"),
                   Message(s.player2, "duel.countdown"), Title(s.player2, "countdown")])
  }

  /** The task at the end of the countdown: starts the session only if it is still active. */
  function BeginDuel(st: Coordinator, sid: SessionId): (r: Step)
    requires sid in st.sessions
    ensures sid in r.next.sessions
    ensures r.next.sessions[sid].started <==> st.sessions[sid].started || st.sessions[sid].active
    ensures r.next.sessions[sid].active == st.sessions[sid].active
    ensures !st.sessions[sid].active ==> r == Step(st, [])
    // Starting a live session tells each of its players with a message and a title.
    ensures var s := st.sessions[sid];
      s.active ==> r.notices == [Message(s.player1, "duel.started"), Title(s.player1, "start"),
                                 Message(s.player2, "duel.started"), Title(s.player2, "start")]
    ensures r.next == st.(sessions := r.next.sessions)
    ensures forall x :: x in st.sessions && x != sid ==> x in r.next.sessions && r.next.sessions[x] == st.sessions[x]
    ensures r.next.sessions.Keys == st.sessions.Keys
  {
    var s := st.sessions[sid];
    if !s.active then Step(st, [])
    else Step(st.(sessions := st.sessions[sid := Start(s)]),
              [Message(s.player1, "duel.started"), Title(s.player1, "start"),
               Message(s.player2, "duel.started"), Title(s.player2, "start")])
  }

  /** The scheduler runs one pending task: it leaves the pending set and its callback runs. */
  function FireJob(st: Coordinator, job: Job): (r: Step)
    requires Valid(st) && job in st.jobs
    ensures job !in r.next.jobs
    // An expiry withdraws its still-registered request and tells the sender.
    ensures job.Expire? ==>
      && !Registered(r.next, job.req) && job.req !in Bucket(r.next.sent, job.req.sender)
      && r.notices == [Message(job.req.sender, "request.expired")]
      && DuelsKept(st, r.next)
    // A tick changes nothing else and counts down to a live session's players.
    ensures job.Tick? ==>
      var s := st.sessions[job.session];
      && r.next == st.(jobs := st.jobs - {job})
      && r.notices == (if s.active then [Message(s.player1, "duel.countdown"), Title(s.player1, "countdown"),
                                         Message(s.player2, "duel.countdown"), Title(s.player2, "countdown")]
                       else [])
    // The begin task starts a live session, tells its players, and changes nothing else.
    ensures job.Begin? ==>
      var s := st.sessions[job.session];
      && r.next == st.(jobs := st.jobs - {job}, sessions := st.sessions[job.session := if s.active then Start(s) else s])
      && (s.active ==> r.next.sessions[job.session].started)
      && r.notices == (if s.active then [Message(s.player1, "duel.started"), Title(s.player1, "start"),
                                         Message(s.player2, "duel.started"), Title(s.player2, "start")]
                       else [])
  {
    var st' := st.(jobs := st.jobs - {job});
    match job
    case Expire(q) => ExpireRequest(st', q)
    case Tick(sid, seconds) => CountdownTick(st', sid, seconds)
    case Begin(sid) => BeginDuel(st', sid)
  }

  // ------------------------------------------------------------ endDuel

  /** The session looked up under the winner, else under the loser. */
  function FindSession(st: Coordinator, winner: PlayerId, loser: PlayerId): (r: Option<SessionId>)
    ensures r.None? <==> !InDuel(st, winner) && !InDuel(st, loser)
    ensures r.Some? ==> r.value in st.activeDuels.Values
    // The winner's registration is consulted first, the loser's only as a fallback.
    ensures winner in st.activeDuels ==> r == Some(st.activeDuels[winner])
    ensures winner !in st.activeDuels && loser in st.activeDuels ==> r == Some(st.activeDuels[loser])
  {
    if winner in st.activeDuels then Some(st.activeDuels[winner])
    else if loser in st.activeDuels then Some(st.activeDuels[loser])
    else None
  }

  /** The result messages and titles for the two parties. */
  function ResultNotices(winner: PlayerId, loser: PlayerId, withBet: bool): seq<Notice>
  {
    [Message(winner, if withBet then "duel.won-with-bet" else "duel.won"), Title(winner, "win"),
     Message(loser, if withBet then "duel.lost-with-bet" else "duel.lost"), Title(loser, "lose")]
  }

  /** `endDuel(winner, loser)`: ends the live session once, deregisters both participants,
      and settles a positive stake from loser to winner; otherwise nothing happens. */
  function EndDuel(st: Coordinator, winner: PlayerId, loser: PlayerId, replies: LedgerReplies): (r: Step)
    requires Valid(st)
    ensures FindSession(st, winner, loser).None? ==> r == Step(st, [])
    ensures FindSession(st, winner, loser).Some? ==>
      var sid := FindSession(st, winner, loser).value;
      var s := st.sessions[sid];
      && sid in r.next.sessions && !r.next.sessions[sid].active
      && r.next.sessions == st.sessions[sid := End(s)]
      && !InDuel(r.next, s.player1) && !InDuel(r.next, s.player2)
      && (forall p :: p != s.player1 && p != s.player2 ==>
            (p in r.next.activeDuels <==> p in st.activeDuels)
            && (p in st.activeDuels ==> r.next.activeDuels[p] == st.activeDuels[p]))
      && (s.bet <= 0 ==> r.next.ledger == st.ledger)
    ensures r.next.pending == st.pending && r.next.sent == st.sent
    ensures r.next.timeoutTasks == st.timeoutTasks && r.next.jobs == st.jobs
    ensures r.next.nextRequestId == st.nextRequestId && r.next.nextSessionId == st.nextSessionId
  {
    match FindSession(st, winner, loser)
    case None => Step(st, [])
    case Some(sid) =>
      var s := st.sessions[sid];
      if !s.active then Step(st, [])
      else
        var actualWinner := if s.player1 == winner then winner else s.player2;
        var actualLoser := if s.player1 == loser then loser else s.player2;
        var ledger :=
          if s.bet > 0 then TransferMoney(st.ledger, actualLoser, actualWinner, s.bet, replies).ledger
          else st.ledger;
        var next := st.(
          sessions := st.sessions[sid := End(s)],
          activeDuels := st.activeDuels - {s.player1, s.player2},
          ledger := ledger);
        Step(next, ResultNotices(actualWinner, actualLoser, s.bet > 0))
  }

  // ------------------------------------------------------------ handlePlayerQuit

  /** Cancels and forgets the timeout tasks of all requests in `rs`. */
  function CancelTimeouts(st: Coordinator, rs: set<DuelRequest>): (r: Coordinator)
    ensures forall q :: q in rs ==> q.id !in r.timeoutTasks
    ensures forall i :: i in r.timeoutTasks <==> i in st.timeoutTasks && forall q :: q in rs ==> q.id != i
    ensures forall i :: i in r.timeoutTasks ==> r.timeoutTasks[i] == st.timeoutTasks[i]
    ensures forall q :: q in rs && q.id in st.timeoutTasks ==> st.timeoutTasks[q.id] !in r.jobs
    ensures r.jobs <= st.jobs
    ensures forall j :: j in st.jobs && j !in r.jobs ==> exists q :: q in rs && q.id in st.timeoutTasks && st.timeoutTasks[q.id] == j
    ensures r == st.(jobs := r.jobs, timeoutTasks := r.timeoutTasks)
  {
    var ids := set q | q in rs :: q.id;
    var cancelled := set i | i in ids && i in st.timeoutTasks :: st.timeoutTasks[i];
    st.(jobs := st.jobs - cancelled, timeoutTasks := st.timeoutTasks - ids)
  }

  /** Under the task invariant, cancelling the stored tasks of registered requests `rs`
      unschedules exactly their expiry jobs: nothing else leaves the job set. */
  lemma ExpiriesCancelled(st: Coordinator, r: Coordinator, rs: set<DuelRequest>)
    requires forall q :: q in rs ==> Registered(st, q)
    requires r.jobs <= st.jobs
    requires forall q :: q in rs && q.id in st.timeoutTasks ==> st.timeoutTasks[q.id] !in r.jobs
    requires forall j :: j in st.jobs && j !in r.jobs ==>
      exists q :: q in rs && q.id in st.timeoutTasks && st.timeoutTasks[q.id] == j
    ensures TasksValid(st) ==> forall j :: j in r.jobs <==> j in st.jobs && !(j.Expire? && j.req in rs)
  {
    if TasksValid(st) {
      forall j ensures j in r.jobs <==> j in st.jobs && !(j.Expire? && j.req in rs) {
        if j in st.jobs && j !in r.jobs {
          var q :| q in rs && q.id in st.timeoutTasks && st.timeoutTasks[q.id] == j;
          assert j == Expire(q);
        }
      }
    }
  }

  /** The first block of `handlePlayerQuit`'s request clean-up: remove the player's bucket
      of received requests, cancel each one's timer and remove it from its sender's bucket. */
  function WithdrawReceived(st: Coordinator, p: PlayerId): (r: Coordinator)
    requires IndexesValid(st)
    ensures forall x: DuelRequest :: x in Bucket(r.pending, x.target) <==> x in Bucket(st.pending, x.target) && x.target != p
    ensures forall x: DuelRequest :: x in Bucket(r.sent, x.sender) <==> x in Bucket(st.sent, x.sender) && x.target != p
    ensures IndexesValid(r)
    // Each withdrawn request's timeout task is forgotten and unscheduled ...
    ensures forall q :: q in Bucket(st.pending, p) ==> q.id !in r.timeoutTasks
    ensures TasksValid(st) ==> forall q :: q in Bucket(st.pending, p) ==> Expire(q) !in r.jobs
    // ... and no other task is touched.
    ensures forall i :: i in r.timeoutTasks ==> i in st.timeoutTasks && r.timeoutTasks[i] == st.timeoutTasks[i]
    ensures forall i :: i in st.timeoutTasks && (forall q :: q in Bucket(st.pending, p) ==> q.id != i) ==> i in r.timeoutTasks
    ensures r.jobs <= st.jobs
    ensures forall j :: j in st.jobs && j !in r.jobs ==>
      exists q :: q in Bucket(st.pending, p) && q.id in st.timeoutTasks && st.timeoutTasks[q.id] == j
    // With the task invariant: exactly the withdrawn requests' expiry jobs are unscheduled.
    ensures TasksValid(st) ==> forall j :: j in r.jobs <==> j in st.jobs && !(j.Expire? && j.req in Bucket(st.pending, p))
    ensures r == st.(pending := r.pending, sent := r.sent, timeoutTasks := r.timeoutTasks, jobs := r.jobs)
    ensures DuelsKept(st, r) && r.nextRequestId == st.nextRequestId && r.nextSessionId == st.nextSessionId
  {
    var received := Bucket(st.pending, p);
    var r := CancelTimeouts(st.(pending := st.pending - {p}, sent := UnindexAll(st.sent, received)), received);
    ExpiriesCancelled(st, r, received);
    r
  }

  /** The second block: the same for the requests the player sent. */
  function WithdrawSent(st: Coordinator, p: PlayerId): (r: Coordinator)
    requires IndexesValid(st)
    ensures forall x: DuelRequest :: x in Bucket(r.pending, x.target) <==> x in Bucket(st.pending, x.target) && x.sender != p
    ensures forall x: DuelRequest :: x in Bucket(r.sent, x.sender) <==> x in Bucket(st.sent, x.sender) && x.sender != p
    ensures IndexesValid(r)
    // Each withdrawn request's timeout task is forgotten and unscheduled ...
    ensures forall q :: q in Bucket(st.sent, p) ==> q.id !in r.timeoutTasks
    ensures TasksValid(st) ==> forall q :: q in Bucket(st.sent, p) ==> Expire(q) !in r.jobs
    // ... and no other task is touched.
    ensures forall i :: i in r.timeoutTasks ==> i in st.timeoutTasks && r.timeoutTasks[i] == st.timeoutTasks[i]
    ensures forall i :: i in st.timeoutTasks && (forall q :: q in Bucket(st.sent, p) ==> q.id != i) ==> i in r.timeoutTasks
    ensures r.jobs <= st.jobs
    ensures forall j :: j in st.jobs && j !in r.jobs ==>
      exists q :: q in Bucket(st.sent, p) && q.id in st.timeoutTasks && st.timeoutTasks[q.id] == j
    // With the task invariant: exactly the withdrawn requests' expiry jobs are unscheduled.
    ensures TasksValid(st) ==> forall j :: j in r.jobs <==> j in st.jobs && !(j.Expire? && j.req in Bucket(st.sent, p))
    ensures r == st.(pending := r.pending, sent := r.sent, timeoutTasks := r.timeoutTasks, jobs := r.jobs)
    ensures DuelsKept(st, r) && r.nextRequestId == st.nextRequestId && r.nextSessionId == st.nextSessionId
  {
    var sentBy := Bucket(st.sent, p);
    var r := CancelTimeouts(st.(sent := st.sent - {p}, pending := UnindexAll(st.pending, sentBy)), sentBy);
    ExpiriesCancelled(st, r, sentBy);
    r
  }

  /** The request half of `handlePlayerQuit`: every request the player received or sent
      leaves both indexes; all other requests stay. */
  function PurgeRequestsOf(st: Coordinator, p: PlayerId): (r: Coordinator)
    requires IndexesValid(st)
    ensures forall x: DuelRequest :: x in Bucket(r.pending, x.target) <==> x in Bucket(st.pending, x.target) && x.sender != p && x.target != p
    ensures forall x: DuelRequest :: x in Bucket(r.sent, x.sender) <==> x in Bucket(st.sent, x.sender) && x.sender != p && x.target != p
    ensures IndexesValid(r)
    // The timeout task of every request involving the player is forgotten and unscheduled ...
    ensures forall q :: Registered(st, q) && (q.sender == p || q.target == p) ==> q.id !in r.timeoutTasks
    ensures TasksValid(st) ==> forall q :: Registered(st, q) && (q.sender == p || q.target == p) ==> Expire(q) !in r.jobs
    // ... and no task of another request is touched.
    ensures forall i :: i in r.timeoutTasks ==> i in st.timeoutTasks && r.timeoutTasks[i] == st.timeoutTasks[i]
    ensures forall i :: i in st.timeoutTasks && (forall q :: Registered(st, q) && q.id == i ==> q.sender != p && q.target != p) ==> i in r.timeoutTasks
    ensures r.jobs <= st.jobs
    // With the task invariant: exactly the expiry jobs of the player's requests are
    // unscheduled; every other expiry and every countdown job stays.
    ensures TasksValid(st) ==> forall j :: j in r.jobs <==> j in st.jobs && !(j.Expire? && (j.req.sender == p || j.req.target == p))
    ensures r == st.(pending := r.pending, sent := r.sent, timeoutTasks := r.timeoutTasks, jobs := r.jobs)
    ensures DuelsKept(st, r) && r.nextRequestId == st.nextRequestId && r.nextSessionId == st.nextSessionId
  {
    PurgeCancelsExactlyExpiries(st, p);
    WithdrawSent(WithdrawReceived(st, p), p)
  }

  /** Under the invariant, purging keeps the timeout task of every registered request not
      involving the player: ids of registered requests are distinct. */
  lemma PurgeKeepsOtherTasks(st: Coordinator, p: PlayerId)
    requires IndexesValid(st) && TasksValid(st)
    ensures forall q :: Registered(st, q) ==>
      (q.id in PurgeRequestsOf(st, p).timeoutTasks <==> q.sender != p && q.target != p)
  {
    forall q | Registered(st, q) && q.sender != p && q.target != p
      ensures q.id in PurgeRequestsOf(st, p).timeoutTasks
    {
      forall q' | Registered(st, q') && q'.id == q.id
        ensures q'.sender != p && q'.target != p
      {
        assert Expire(q') == st.timeoutTasks[q.id] == Expire(q);
      }
    }
  }

  /** The job part of `PurgeRequestsOf`: the two blocks together unschedule exactly the
      expiry jobs of requests the player sent or received. */
  lemma PurgeCancelsExactlyExpiries(st: Coordinator, p: PlayerId)
    requires IndexesValid(st)
    ensures var r := WithdrawSent(WithdrawReceived(st, p), p);
      TasksValid(st) ==> forall j :: j in r.jobs <==> j in st.jobs && !(j.Expire? && (j.req.sender == p || j.req.target == p))
  {
    var r1 := WithdrawReceived(st, p);
    var r := WithdrawSent(r1, p);
    if TasksValid(st) {
      forall j ensures j in r.jobs <==> j in st.jobs && !(j.Expire? && (j.req.sender == p || j.req.target == p)) {
        if j in st.jobs && j !in r.jobs {
          if j in r1.jobs {
            var q :| q in Bucket(r1.sent, p) && q.id in r1.timeoutTasks && r1.timeoutTasks[q.id] == j;
            assert Registered(st, q);
            assert j == Expire(q);
          } else {
            var q :| q in Bucket(st.pending, p) && q.id in st.timeoutTasks && st.timeoutTasks[q.id] == j;
            assert j == Expire(q);
          }
        }
        if j in st.jobs && j.Expire? && (j.req.sender == p || j.req.target == p) {
          var q := j.req;
          assert Registered(st, q);
          if q.target != p {
            assert q in Bucket(r1.sent, p);
          }
        }
      }
    }
  }

  /** `handlePlayerQuit(p)`: a live session is forfeited to the opponent; independently,
      every request the player sent or received is withdrawn with its timer. */
  function HandlePlayerQuit(st: Coordinator, p: PlayerId, replies: LedgerReplies): (r: Step)
    requires Valid(st)
    // Requests involving the player are gone from both indexes; all others stay.
    ensures forall x: DuelRequest :: x in Bucket(r.next.pending, x.target) <==> Registered(st, x) && x.sender != p && x.target != p
    ensures forall x: DuelRequest :: x in Bucket(r.next.sent, x.sender) <==> x in Bucket(st.sent, x.sender) && x.sender != p && x.target != p
    // Exactly the timeout tasks and expiry jobs of those requests are cancelled; countdown
    // jobs of every session stay scheduled.
    ensures forall i :: i in r.next.timeoutTasks ==> i in st.timeoutTasks && r.next.timeoutTasks[i] == st.timeoutTasks[i]
    ensures forall q :: Registered(st, q) ==> (q.id in r.next.timeoutTasks <==> q.sender != p && q.target != p)
    ensures forall j :: j in r.next.jobs <==> j in st.jobs && !(j.Expire? && (j.req.sender == p || j.req.target == p))
    // A player outside any duel only loses their requests.
    ensures !InDuel(st, p) ==> r.notices == [] && DuelsKept(st, r.next)
    ensures !InDuel(st, p) ==>
      r.next == st.(pending := r.next.pending, sent := r.next.sent, timeoutTasks := r.next.timeoutTasks, jobs := r.next.jobs)
  {
    var afterDuel :=
      if p in st.activeDuels && st.sessions[st.activeDuels[p]].active then
        match OpponentId(st.sessions[st.activeDuels[p]], p)
        case None => Step(st, [])  // a registered player is always a participant
        case Some(opponent) =>
          var ended := EndDuel(st, opponent, p, replies);
          Step(ended.next, ended.notices + [Message(opponent, "duel.player-left")])
      else Step(st, []);
    var mid := afterDuel.next;
    assert mid.pending == st.pending && mid.sent == st.sent && mid.timeoutTasks == st.timeoutTasks;
    assert mid.jobs == st.jobs && mid.nextRequestId == st.nextRequestId;
    assert TasksValid(mid);
    PurgeKeepsOtherTasks(mid, p);
    Step(PurgeRequestsOf(mid, p), afterDuel.notices)
  }

  // ------------------------------------------------------------ cancelAllDuels

  /** `cancelAllDuels`: ends every registered session (no settlement), cancels every
      timeout task, and clears all four maps. */
  function CancelAllDuels(st: Coordinator): (r: Coordinator)
    ensures r.activeDuels == map[] && r.timeoutTasks == map[] && r.pending == map[] && r.sent == map[]
    ensures r.sessions.Keys == st.sessions.Keys
    ensures forall sid :: sid in st.sessions && sid in st.activeDuels.Values ==> !r.sessions[sid].active
    ensures forall sid :: sid in st.sessions && sid !in st.activeDuels.Values ==> r.sessions[sid] == st.sessions[sid]
    ensures forall sid :: sid in st.sessions ==> r.sessions[sid].started == st.sessions[sid].started
    ensures r.jobs == st.jobs - st.timeoutTasks.Values
    ensures r.ledger == st.ledger
  {
    st.(
      sessions := map sid | sid in st.sessions ::
        if sid in st.activeDuels.Values then End(st.sessions[sid]) else st.sessions[sid],
      activeDuels := map[],
      jobs := st.jobs - st.timeoutTasks.Values,
      timeoutTasks := map[],
      pending := map[],
      sent := map[])
  }
}

=== FILE: economy.dfy ===
/** Stake handling (`EconomyManager`): the affordability check and the
    withdraw / deposit / refund transfer protocol against an external ledger. */
module Economy {
  import opened Types

  /** Balances held by the external economy provider; a player without an entry reads as 0. */
  type Ledger = map<PlayerId, int>

  function Balance(l: Ledger, p: PlayerId): int
  {
    if p in l then l[p] else 0
  }

  /** The effect of a successful deposit call. */
  function Credit(l: Ledger, p: PlayerId, amount: int): (r: Ledger)
    ensures Balance(r, p) == Balance(l, p) + amount
    ensures forall q :: q != p ==> Balance(r, q) == Balance(l, q)
  {
    l[p := Balance(l, p) + amount]
  }

  /** The effect of a successful withdrawal call. */
  function Debit(l: Ledger, p: PlayerId, amount: int): (r: Ledger)
    ensures Balance(r, p) == Balance(l, p) - amount
    ensures forall q :: q != p ==> Balance(r, q) == Balance(l, q)
  {
    l[p := Balance(l, p) - amount]
  }

  /** `hasEnoughMoney`: non-positive amounts are always affordable; otherwise the
      balance must cover the amount unless negative balances are allowed. */
  predicate HasEnoughMoney(l: Ledger, allowNegativeBalance: bool, p: PlayerId, amount: int)
  {
    if amount <= 0 then true
    else if !allowNegativeBalance && Balance(l, p) < amount then false
    else true
  }

  /** Any non-positive amount is affordable; a positive one is affordable exactly when
      negative balances are allowed or the balance covers it. */
  lemma HasEnoughMoneyIff(l: Ledger, allowNegativeBalance: bool, p: PlayerId, amount: int)
    ensures amount <= 0 ==> HasEnoughMoney(l, allowNegativeBalance, p, amount)
    ensures amount > 0 ==> (HasEnoughMoney(l, allowNegativeBalance, p, amount) <==> allowNegativeBalance || Balance(l, p) >= amount)
  {
  }

  /** The answers the ledger gives to the (at most) three calls of one transfer. */
  datatype LedgerReplies = LedgerReplies(withdrawOk: bool, depositOk: bool, refundOk: bool)

  /** A call made to the ledger, in order. */
  datatype LedgerCall = WithdrawCall(who: PlayerId, amount: int) | DepositCall(who: PlayerId, amount: int)

  /** The level of one line a transfer wrote to the server log. */
  datatype LogLevel = InfoLog | WarningLog | SevereLog

  /** The outcome of a transfer: its result, the ledger after it, the ledger calls it made
      and the log lines it wrote, both in order. */
  datatype Transfer = Transfer(ok: bool, ledger: Ledger, calls: seq<LedgerCall>, logs: seq<LogLevel>)

  /** Every balance moved by exactly the stake: `amount` out of `from`, `amount` into `to`. */
  ghost predicate Moved(l: Ledger, l': Ledger, from: PlayerId, to: PlayerId, amount: int)
  {
    forall q :: Balance(l', q) == Balance(l, q) - (if q == from then amount else 0) + (if q == to then amount else 0)
  }

  /** Every balance as before. */
  ghost predicate Unchanged(l: Ledger, l': Ledger)
  {
    forall q :: Balance(l', q) == Balance(l, q)
  }

  /** `from` lost `amount`, nobody gained anything. */
  ghost predicate Lost(l: Ledger, l': Ledger, from: PlayerId, amount: int)
  {
    forall q :: Balance(l', q) == Balance(l, q) - (if q == from then amount else 0)
  }

  /** `transferMoney(from, to, amount)`: withdraw from the loser, deposit to the winner,
      and on a failed deposit refund the loser. */
  function TransferMoney(l: Ledger, from: PlayerId, to: PlayerId, amount: int, replies: LedgerReplies): (t: Transfer)
    // Non-positive stakes: success without touching the ledger.
    ensures amount <= 0 ==> t.ok && t.calls == [] && t.ledger == l && t.logs == []
    // Success exactly when both the withdrawal and the deposit went through.
    ensures amount > 0 ==> (t.ok <==> replies.withdrawOk && replies.depositOk)
    // Withdrawal refused: abort, nothing else is called, nothing moved.
    ensures amount > 0 && !replies.withdrawOk ==>
      t.calls == [WithdrawCall(from, amount)] && Unchanged(l, t.ledger) && t.logs == [WarningLog]
    // All calls succeed: the stake moved from loser to winner.
    ensures amount > 0 && t.ok ==>
      t.calls == [WithdrawCall(from, amount), DepositCall(to, amount)] && Moved(l, t.ledger, from, to, amount)
      && t.logs == []
    // Deposit refused: a warning is logged and the third call is the refund to the loser.
    ensures amount > 0 && replies.withdrawOk && !replies.depositOk ==>
      t.calls == [WithdrawCall(from, amount), DepositCall(to, amount), DepositCall(from, amount)]
      && |t.logs| == 2 && t.logs[0] == WarningLog
    // ... which restores every balance when it succeeds and is then reported at info level,
    ensures amount > 0 && replies.withdrawOk && !replies.depositOk && replies.refundOk ==>
      Unchanged(l, t.ledger) && t.logs == [WarningLog, InfoLog]
    // ... and otherwise leaves the loser debited and is reported as severe.
    ensures amount > 0 && replies.withdrawOk && !replies.depositOk && !replies.refundOk ==>
      Lost(l, t.ledger, from, amount) && t.logs == [WarningLog, SevereLog]
    // Every failed transfer logs a warning; a severe line appears exactly when money was lost.
    ensures !t.ok ==> WarningLog in t.logs
    ensures SevereLog in t.logs <==> amount > 0 && replies.withdrawOk && !replies.depositOk && !replies.refundOk
  {
    if amount <= 0 then Transfer(true, l, [], [])
    else if !replies.withdrawOk then
      Transfer(false, l, [WithdrawCall(from, amount)], [WarningLog])
    else
      var afterWithdraw := Debit(l, from, amount);
      if replies.depositOk then
        Transfer(true, Credit(afterWithdraw, to, amount), [WithdrawCall(from, amount), DepositCall(to, amount)], [])
      else
        var calls := [WithdrawCall(from, amount), DepositCall(to, amount), DepositCall(from, amount)];
        if replies.refundOk then Transfer(false, Credit(afterWithdraw, from, amount), calls, [WarningLog, InfoLog])
        else Transfer(false, afterWithdraw, calls, [WarningLog, SevereLog])
  }

  /** Money is conserved between the two parties and nobody else is touched; the only
      way money disappears is the unrecovered refund, and then by exactly the stake. */
  lemma TransferConservesMoney(l: Ledger, from: PlayerId, to: PlayerId, amount: int, replies: LedgerReplies)
    requires from != to
    ensures var t := TransferMoney(l, from, to, amount, replies);
      && (forall q :: q != from && q != to ==> Balance(t.ledger, q) == Balance(l, q))
      && Balance(t.ledger, from) + Balance(t.ledger, to)
         == Balance(l, from) + Balance(l, to) - (if SevereLog in t.logs then amount else 0)
  {
    var t := TransferMoney(l, from, to, amount, replies);
    if amount > 0 && replies.withdrawOk && replies.depositOk {
      assert Moved(l, t.ledger, from, to, amount);
      assert Balance(t.ledger, from) == Balance(l, from) - amount;
      assert Balance(t.ledger, to) == Balance(l, to) + amount;
    } else if amount > 0 && replies.withdrawOk && !replies.refundOk {
      assert Balance(t.ledger, from) == Balance(l, from) - amount;
      assert Balance(t.ledger, to) == Balance(l, to);
    } else {
      assert Balance(t.ledger, from) == Balance(l, from);
      assert Balance(t.ledger, to) == Balance(l, to);
    }
  }

  /** The affordability check is what keeps a loser out of debt: with negative balances
      disallowed, a stake that passed the check leaves a non-negative balance
      after any outcome of the transfer. */
  lemma AffordableStakeKeepsBalance(l: Ledger, from: PlayerId, to: PlayerId, amount: int, replies: LedgerReplies)
    requires HasEnoughMoney(l, false, from, amount) && Balance(l, from) >= 0
    ensures Balance(TransferMoney(l, from, to, amount, replies).ledger, from) >= 0
  {
    var t := TransferMoney(l, from, to, amount, replies);
    if amount > 0 && replies.withdrawOk {
      assert Balance(l, from) >= amount;
      assert Balance(t.ledger, from) >= Balance(l, from) - amount;
    }
  }
}

=== FILE: lifecycle.dfy ===
/** The plugin as a whole: the manager driven by commands, scheduler tasks and game
    events, in any order. Every reachable state keeps the manager's invariant, and a
    duel that has ended is never touched again. */
module Lifecycle {
  import opened Types
  import opened Sessions
  import opened Economy
  import opened ManagerState
  import opened DuelManager
  import opened ManagerInvariant
  import opened ManagerProperties
  import opened DuelListener

  /** What can happen to the manager. Proximity and the economy's answers are part of the
      event, as the game and the economy provider decide them. Damage and chat commands
      do not change the manager and are absent. */
  datatype Event =
    | Challenge(sender: PlayerId, target: PlayerId, bet: int, inRange: bool)
    | AcceptChallenge(target: PlayerId, sender: PlayerId, inRange: bool)
    | Timer(job: Job)
    | Death(player: PlayerId, killer: Option<PlayerId>, drops: DeathDrops, replies: LedgerReplies)
    | Quit(player: PlayerId, replies: LedgerReplies)
    | Shutdown

  /** Whether an event can occur: accepting is offered only to players outside duels, and
      the scheduler runs only tasks that are still pending. */
  predicate Enabled(st: Coordinator, e: Event)
  {
    match e
    case AcceptChallenge(target, sender, _) => !InDuel(st, target) && !InDuel(st, sender)
    case Timer(job) => job in st.jobs
    case _ => true
  }

  /** One event, dispatched to the operation handling it. */
  function Apply(st: Coordinator, cfg: Config, e: Event): (r: Step)
    requires Valid(st) && Enabled(st, e)
    ensures Valid(r.next)
  {
    match e
    case Challenge(sender, target, bet, inRange) =>
      CreatePreservesValid(st, cfg, sender, target, bet, inRange);
      var c := CreateRequest(st, cfg, sender, target, bet, inRange);
      Step(c.next, c.notices)
    case AcceptChallenge(target, sender, inRange) =>
      AcceptPreservesValid(st, cfg, target, sender, inRange);
      var a := AcceptRequest(st, cfg, target, sender, inRange);
      Step(a.next, a.notices)
    case Timer(job) =>
      FireJobPreservesValid(st, job);
      FireJob(st, job)
    case Death(player, killer, drops, replies) =>
      HandlePlayerQuitPreservesValid(st, player, replies);
      if killer.Some? then
        EndDuelPreservesValid(st, killer.value, player, replies);
        OnPlayerDeath(st, player, killer, drops, replies).step
      else
        OnPlayerDeath(st, player, killer, drops, replies).step
    case Quit(player, replies) =>
      HandlePlayerQuitPreservesValid(st, player, replies);
      OnPlayerQuit(st, player, replies)
    case Shutdown =>
      CancelAllPreservesValid(st);
      Step(CancelAllDuels(st), [])
  }

  /** A sequence of events from a valid state; events that cannot occur are skipped. */
  function Run(st: Coordinator, cfg: Config, events: seq<Event>): (r: Coordinator)
    requires Valid(st)
    ensures Valid(r)
    decreases |events|
  {
    if events == [] then st
    else
      var next := if Enabled(st, events[0]) then Apply(st, cfg, events[0]).next else st;
      Run(next, cfg, events[1..])
  }

  /** Sessions are never forgotten, and an ended one never changes again. */
  ghost predicate EndedFrozen(a: Coordinator, b: Coordinator)
  {
    forall sid :: sid in a.sessions ==>
      sid in b.sessions && (!a.sessions[sid].active ==> b.sessions[sid] == a.sessions[sid])
  }

  lemma EndDuelFreezesEnded(st: Coordinator, winner: PlayerId, loser: PlayerId, replies: LedgerReplies)
    requires Valid(st)
    ensures EndedFrozen(st, EndDuel(st, winner, loser, replies).next)
  {
  }

  lemma QuitFreezesEnded(st: Coordinator, p: PlayerId, replies: LedgerReplies)
    requires Valid(st)
    ensures EndedFrozen(st, HandlePlayerQuit(st, p, replies).next)
  {
    if InDuel(st, p) {
      QuitForfeitsToOpponent(st, p, replies);
      var opponent := OpponentId(st.sessions[st.activeDuels[p]], p).value;
      EndDuelFreezesEnded(st, opponent, p, replies);
    }
  }

  lemma CreateFreezesEnded(st: Coordinator, cfg: Config, sender: PlayerId, target: PlayerId, bet: int, inRange: bool)
    ensures EndedFrozen(st, CreateRequest(st, cfg, sender, target, bet, inRange).next)
  {
  }

  lemma AcceptFreezesEnded(st: Coordinator, cfg: Config, target: PlayerId, sender: PlayerId, inRange: bool)
    requires Valid(st) && !InDuel(st, target) && !InDuel(st, sender)
    ensures EndedFrozen(st, AcceptRequest(st, cfg, target, sender, inRange).next)
  {
  }

  lemma FireJobFreezesEnded(st: Coordinator, job: Job)
    requires Valid(st) && job in st.jobs
    ensures EndedFrozen(st, FireJob(st, job).next)
  {
  }

  lemma DeathFreezesEnded(st: Coordinator, player: PlayerId, killer: Option<PlayerId>, drops: DeathDrops, replies: LedgerReplies)
    requires Valid(st)
    ensures EndedFrozen(st, OnPlayerDeath(st, player, killer, drops, replies).step.next)
  {
    QuitFreezesEnded(st, player, replies);
    if killer.Some? {
      EndDuelFreezesEnded(st, killer.value, player, replies);
    }
  }

  lemma ShutdownFreezesEnded(st: Coordinator)
    ensures EndedFrozen(st, CancelAllDuels(st))
  {
    forall sid | sid in st.sessions && !st.sessions[sid].active
      ensures CancelAllDuels(st).sessions[sid] == st.sessions[sid]
    {
      var s := st.sessions[sid];
      assert End(s) == s;
    }
  }

  /** Every single event keeps ended sessions as they were. */
  lemma ApplyFreezesEnded(st: Coordinator, cfg: Config, e: Event)
    requires Valid(st) && Enabled(st, e)
    ensures EndedFrozen(st, Apply(st, cfg, e).next)
  {
    match e
    case Challenge(sender, target, bet, inRange) =>
      CreateFreezesEnded(st, cfg, sender, target, bet, inRange);
    case AcceptChallenge(target, sender, inRange) =>
      AcceptFreezesEnded(st, cfg, target, sender, inRange);
    case Timer(job) =>
      FireJobFreezesEnded(st, job);
    case Death(player, killer, drops, replies) =>
      DeathFreezesEnded(st, player, killer, drops, replies);
    case Quit(player, replies) =>
      QuitFreezesEnded(st, player, replies);
    case Shutdown =>
      ShutdownFreezesEnded(st);
  }

  /** Along any run, ended sessions stay exactly as they were when they ended. */
  lemma {:induction false} RunFreezesEnded(st: Coordinator, cfg: Config, events: seq<Event>)
    requires Valid(st)
    ensures EndedFrozen(st, Run(st, cfg, events))
    decreases |events|
  {
    if events != [] {
      var next := if Enabled(st, events[0]) then Apply(st, cfg, events[0]).next else st;
      if Enabled(st, events[0]) {
        ApplyFreezesEnded(st, cfg, events[0]);
      }
      RunFreezesEnded(next, cfg, events[1..]);
    }
  }

  /** A duel ended during its countdown (a quit, a death, a shutdown) never starts,
      whatever tasks of its countdown still fire afterwards. */
  lemma EndedDuringCountdownNeverStarts(st: Coordinator, cfg: Config, events: seq<Event>, sid: SessionId)
    requires Valid(st) && sid in st.sessions
    requires !st.sessions[sid].active && !st.sessions[sid].started
    ensures var r := Run(st, cfg, events);
      sid in r.sessions && !r.sessions[sid].started && !r.sessions[sid].active
  {
    RunFreezesEnded(st, cfg, events);
  }

  /** The end of a live session's countdown starts it: both players stay registered to it
      and are told the duel has started. */
  lemma CountdownEndStartsDuel(st: Coordinator, cfg: Config, sid: SessionId)
    requires Valid(st) && Begin(sid) in st.jobs && sid in st.sessions && st.sessions[sid].active
    ensures var s := st.sessions[sid];
      var r := Apply(st, cfg, Timer(Begin(sid)));
      && sid in r.next.sessions && r.next.sessions[sid].started && r.next.sessions[sid].active
      && AreInSameDuel(r.next, s.player1, s.player2)
      && r.notices == [Message(s.player1, "duel.started"), Title(s.player1, "start"),
                       Message(s.player2, "duel.started"), Title(s.player2, "start")]
  {
    var s := st.sessions[sid];
    assert st.activeDuels[s.player1] == sid && st.activeDuels[s.player2] == sid;
  }

  /** An accepted challenge schedules the start of its duel, and running that task starts
      the duel between the two players. */
  lemma AcceptedDuelStartsAfterCountdown(st: Coordinator, cfg: Config, target: PlayerId, sender: PlayerId, inRange: bool)
    requires Valid(st) && !InDuel(st, target) && !InDuel(st, sender)
    requires AcceptRequest(st, cfg, target, sender, inRange).ok
    ensures var a := AcceptRequest(st, cfg, target, sender, inRange);
      var sid := st.nextSessionId;
      && Valid(a.next) && Begin(sid) in a.next.jobs
      && var r := Apply(a.next, cfg, Timer(Begin(sid)));
      && r.next.sessions[sid].started && AreInSameDuel(r.next, sender, target)
  {
    AcceptPreservesValid(st, cfg, target, sender, inRange);
    var a := AcceptRequest(st, cfg, target, sender, inRange);
    CountdownEndStartsDuel(a.next, cfg, st.nextSessionId);
  }

  /** In every reachable state a player takes part in at most one live session, and the
      two players of a live session are both registered to it. */
  lemma OneLiveSessionPerPlayer(st: Coordinator, cfg: Config, events: seq<Event>, p: PlayerId, a: SessionId, b: SessionId)
    requires Valid(st)
    ensures var r := Run(st, cfg, events);
      InLiveSession(r, p, a) && InLiveSession(r, p, b) ==> a == b && r.activeDuels[p] == a
  {
    var r := Run(st, cfg, events);
    if InLiveSession(r, p, a) && InLiveSession(r, p, b) {
      InDuelIffLiveSession(r, p);
      assert r.activeDuels[p] == a;
    }
  }
}

=== FILE: listeners.dfy ===
/** `DuellListener`: the three game events the duel manager reacts to — a player's death,
    a player leaving the server, and one entity damaging another. */
module DuelListener {
  import opened Types
  import opened Sessions
  import opened Economy
  import opened ManagerState
  import opened DuelManager
  import opened ManagerProperties

  /** The parties of a damage event: a player, or any other entity — a mob, or any
      projectile, even one a player shot (the damager is then the projectile itself). */
  datatype Entity = PlayerEntity(id: PlayerId) | OtherEntity

  /** The drop settings a death event carries: whether the victim keeps inventory and
      level, how many item stacks are dropped, and how much experience is dropped. They
      arrive set by the game (its game rules, earlier handlers) and a handler may change them. */
  datatype DeathDrops = DeathDrops(keepInventory: bool, keepLevel: bool, drops: nat, droppedExp: nat)

  /** What a death leaves behind: the manager's step and the event's drop settings. */
  datatype DeathOutcome = DeathOutcome(step: Step, drops: DeathDrops)

  /** `onEntityDamageByEntity`: whether the event ends up cancelled. The handler only ever
      sets the flag, so an event that arrives cancelled stays cancelled. */
  function OnEntityDamage(st: Coordinator, damaged: Entity, damager: Entity, cancelled: bool): (r: bool)
    ensures cancelled ==> r
    // Anything but player-on-player damage is left alone.
    ensures !(damaged.PlayerEntity? && damager.PlayerEntity?) ==> r == cancelled
    // Fights between players outside duels are none of the plugin's business.
    ensures damaged.PlayerEntity? && damager.PlayerEntity? && !InDuel(st, damaged.id) && !InDuel(st, damager.id) ==> r == cancelled
  {
    match (damaged, damager)
    case (PlayerEntity(a), PlayerEntity(b)) =>
      if AreInSameDuel(st, a, b) then
        cancelled || !IsDuelInProgress(st, a)
      else
        cancelled || InDuel(st, a) || InDuel(st, b)
    case _ => cancelled
  }

  /** A hit between two players goes through exactly when neither takes part in a live
      session, or both take part in the same live session and its countdown is over. */
  lemma DamageAllowedIff(st: Coordinator, a: PlayerId, b: PlayerId)
    requires Valid(st)
    ensures !OnEntityDamage(st, PlayerEntity(a), PlayerEntity(b), false) <==>
      || (forall sid :: !InLiveSession(st, a, sid) && !InLiveSession(st, b, sid))
      || (exists sid :: InLiveSession(st, a, sid) && InLiveSession(st, b, sid) && st.sessions[sid].started)
  {
    InDuelIffLiveSession(st, a);
    InDuelIffLiveSession(st, b);
    SameDuelIffSharedSession(st, a, b);
    if sid :| InLiveSession(st, a, sid) && InLiveSession(st, b, sid) && st.sessions[sid].started {
      assert st.activeDuels[a] == sid;
    }
  }

  /** The damage rule does not depend on who hits whom. */
  lemma DamageRuleSymmetric(st: Coordinator, a: PlayerId, b: PlayerId, cancelled: bool)
    requires Valid(st)
    ensures OnEntityDamage(st, PlayerEntity(a), PlayerEntity(b), cancelled) == OnEntityDamage(st, PlayerEntity(b), PlayerEntity(a), cancelled)
  {
    SameDuelIffSharedSession(st, a, b);
  }

  /** Duel partners cannot hurt each other during the countdown. */
  lemma NoDamageDuringCountdown(st: Coordinator, a: PlayerId, b: PlayerId, sid: SessionId)
    requires Valid(st)
    requires InLiveSession(st, a, sid) && InLiveSession(st, b, sid) && !st.sessions[sid].started
    ensures OnEntityDamage(st, PlayerEntity(a), PlayerEntity(b), false)
  {
    InDuelIffLiveSession(st, a);
    InDuelIffLiveSession(st, b);
    assert st.activeDuels[a] == sid;
  }

  /** `onPlayerDeath`: a death inside a duel ends it — won by the killer when the killer is
      the dead player's duel partner, forfeited as by a quit otherwise (no killer, or a
      killer from outside the duel) — and the victim keeps inventory and level, dropping
      no items and no experience. Deaths outside duels are ignored, drop settings included. */
  function OnPlayerDeath(st: Coordinator, player: PlayerId, killer: Option<PlayerId>, drops: DeathDrops, replies: LedgerReplies): (r: DeathOutcome)
    requires Valid(st)
    // The handler only ever turns keeping on: the inventory is kept when the event
    // already kept it or the player was in a duel.
    ensures r.drops.keepInventory <==> drops.keepInventory || InDuel(st, player)
    ensures r.drops.keepLevel <==> drops.keepLevel || InDuel(st, player)
    ensures InDuel(st, player) ==> r.drops.drops == 0 && r.drops.droppedExp == 0
    ensures !InDuel(st, player) ==> r.drops == drops
    ensures !InDuel(r.step.next, player)
    ensures InDuel(st, player) ==> st.activeDuels[player] in r.step.next.sessions && !r.step.next.sessions[st.activeDuels[player]].active
    ensures !InDuel(st, player) ==> r.step == Step(st, [])
  {
    if InDuel(st, player) then
      if killer.None? || !AreInSameDuel(st, player, killer.value) then
        QuitForfeitsToOpponent(st, player, replies);
        DeathOutcome(HandlePlayerQuit(st, player, replies), DeathDrops(true, true, 0, 0))
      else
        var k := killer.value;
        var s := st.sessions[st.activeDuels[k]];
        assert HasPlayer(s, k) && HasPlayer(s, player);
        assert FindSession(st, k, player) == Some(st.activeDuels[k]);
        DeathOutcome(EndDuel(st, k, player, replies), DeathDrops(true, true, 0, 0))
    else
      DeathOutcome(Step(st, []), drops)
  }

  /** Killed by the duel partner: the partner wins and collects a positive stake. */
  lemma DeathByPartnerPaysKiller(st: Coordinator, player: PlayerId, killer: PlayerId, drops: DeathDrops, replies: LedgerReplies)
    requires Valid(st) && AreInSameDuel(st, player, killer) && player != killer
    ensures var s := st.sessions[st.activeDuels[player]];
      var r := OnPlayerDeath(st, player, Some(killer), drops, replies);
      && r.step == EndDuel(st, killer, player, replies)
      && !InDuel(r.step.next, killer)
      && (s.bet > 0 ==> r.step.next.ledger == TransferMoney(st.ledger, player, killer, s.bet, replies).ledger)
      && r.step.notices == ResultNotices(killer, player, s.bet > 0)
  {
    EndDuelSettlesStake(st, killer, player, replies);
  }

  /** Any other death in a duel counts as leaving: the partner wins. */
  lemma OtherDeathForfeits(st: Coordinator, player: PlayerId, killer: Option<PlayerId>, drops: DeathDrops, replies: LedgerReplies)
    requires Valid(st) && InDuel(st, player)
    requires killer.None? || !AreInSameDuel(st, player, killer.value)
    ensures var opponent := OpponentId(st.sessions[st.activeDuels[player]], player).value;
      var r := OnPlayerDeath(st, player, killer, drops, replies);
      && r.step == HandlePlayerQuit(st, player, replies)
      && !InDuel(r.step.next, opponent)
      && r.step.notices == EndDuel(st, opponent, player, replies).notices + [Message(opponent, "duel.player-left")]
  {
    QuitForfeitsToOpponent(st, player, replies);
  }

  /** A dueling player recorded as their own killer counts as being in the same duel as
      themselves, so the duel is ended with them as both winner and loser: the opponent
      is told nothing and no stake reaches the opponent. */
  lemma SelfKillLeavesOpponentEmptyHanded(st: Coordinator, p: PlayerId, drops: DeathDrops, replies: LedgerReplies)
    requires Valid(st) && InDuel(st, p)
    ensures var s := st.sessions[st.activeDuels[p]];
      var opponent := OpponentId(s, p).value;
      var r := OnPlayerDeath(st, p, Some(p), drops, replies);
      && r.step.notices == ResultNotices(p, p, s.bet > 0)
      && (opponent != p ==> Balance(r.step.next.ledger, opponent) == Balance(st.ledger, opponent))
      && !InDuel(r.step.next, opponent)
  {
    var s := st.sessions[st.activeDuels[p]];
    assert HasPlayer(s, p);
    assert FindSession(st, p, p) == Some(st.activeDuels[p]);
  }

  /** `onPlayerQuit`: only a player registered in a duel is handed to `handlePlayerQuit`;
      for anybody else the event changes nothing — their requests stay until they expire. */
  function OnPlayerQuit(st: Coordinator, p: PlayerId, replies: LedgerReplies): (r: Step)
    requires Valid(st)
    ensures !InDuel(r.next, p)
    ensures !InDuel(st, p) ==> r == Step(st, [])
    ensures InDuel(st, p) ==> forall q: PlayerId :: !HasPendingRequest(r.next, p, q) && !HasPendingRequest(r.next, q, p)
    // A duelling quitter is handed to handlePlayerQuit: the duel is forfeited to the
    // opponent, who wins the stake and is told the player left.
    ensures InDuel(st, p) ==> r == HandlePlayerQuit(st, p, replies)
    ensures InDuel(st, p) ==>
      var opponent := OpponentId(st.sessions[st.activeDuels[p]], p).value;
      var ended := EndDuel(st, opponent, p, replies);
      && r.next.ledger == ended.next.ledger
      && !InDuel(r.next, opponent)
      && r.notices == ended.notices + [Message(opponent, "duel.player-left")]
  {
    if InDuel(st, p) then
      QuitForfeitsToOpponent(st, p, replies);
      HandlePlayerQuit(st, p, replies)
    else
      Step(st, [])
  }
}

=== FILE: manager_invariant.dfy ===
/** Every `DuellManager` operation and scheduled callback preserves the representation
    invariant `Valid`: consistent indexes without empty buckets, one timeout task per
    registered request, and at most one live session per player. */
module ManagerInvariant {
  import opened Types
  import opened Requests
  import opened Sessions
  import opened Economy
  import opened Registry
  import opened ManagerState
  import opened DuelManager

  /** Registered requests with different identities have different ids. */
  lemma DistinctRequestsDistinctIds(st: Coordinator)
    requires Valid(st)
    ensures forall a, b :: Registered(st, a) && Registered(st, b) && a != b ==> a.id != b.id
  {
    forall a, b | Registered(st, a) && Registered(st, b) && a != b ensures a.id != b.id {
      RegisteredRequestsIdentifiedById(st, a, b);
    }
  }

  /** The index part of `Valid` depends only on which requests each index holds. */
  lemma IndexesValidFromContents(st: Coordinator, n: Coordinator)
    requires IndexesValid(st)
    requires NoEmptyBuckets(n.pending) && NoEmptyBuckets(n.sent)
    requires forall t, q :: t in n.pending && q in n.pending[t] ==> q in Bucket(st.pending, t)
    requires forall s, q :: s in n.sent && q in n.sent[s] ==> q in Bucket(st.sent, s)
    requires forall q: DuelRequest :: q in Bucket(n.pending, q.target) <==> q in Bucket(n.sent, q.sender)
    ensures IndexesValid(n)
  {
  }

  lemma CreatePreservesValid(st: Coordinator, cfg: Config, sender: PlayerId, target: PlayerId, bet: int, inRange: bool)
    requires Valid(st)
    ensures Valid(CreateRequest(st, cfg, sender, target, bet, inRange).next)
  {
    var r := CreateRequest(st, cfg, sender, target, bet, inRange);
    if r.ok {
      var q := DuelRequest(st.nextRequestId, sender, target, bet);
      var n := r.next;
      CreateKeepsIndexes(st, n, q);
      CreateKeepsTasks(st, n, q);
      assert SessionsValid(n);
    }
  }

  lemma CreateKeepsIndexes(st: Coordinator, n: Coordinator, q: DuelRequest)
    requires IndexesValid(st)
    requires n.pending == Insert(st.pending, q.target, q) && n.sent == Insert(st.sent, q.sender, q)
    ensures IndexesValid(n)
  {
    assert forall x: DuelRequest :: x in Bucket(n.pending, x.target) <==> x in Bucket(st.pending, x.target) || x == q;
    assert forall x: DuelRequest :: x in Bucket(n.sent, x.sender) <==> x in Bucket(st.sent, x.sender) || x == q;
  }

  lemma CreateKeepsTasks(st: Coordinator, n: Coordinator, q: DuelRequest)
    requires Valid(st) && q.id == st.nextRequestId
    requires n.pending == Insert(st.pending, q.target, q)
    requires n.timeoutTasks == st.timeoutTasks[q.id := Expire(q)] && n.jobs == st.jobs + {Expire(q)}
    requires n.nextRequestId == st.nextRequestId + 1
    ensures TasksValid(n)
  {
    assert forall x :: Registered(n, x) <==> Registered(st, x) || x == q;
    assert !Registered(st, q);
    assert q.id !in st.timeoutTasks;
  }

  lemma AcceptPreservesValid(st: Coordinator, cfg: Config, target: PlayerId, sender: PlayerId, inRange: bool)
    requires Valid(st)
    requires !InDuel(st, target) && !InDuel(st, sender)
    ensures Valid(AcceptRequest(st, cfg, target, sender, inRange).next)
  {
    var r := AcceptRequest(st, cfg, target, sender, inRange);
    if r.ok {
      var q := GetPendingRequest(st, target, sender).value;
      var n := r.next;
      AcceptKeepsIndexes(st, n, q);
      AcceptKeepsTasks(st, n, q, CountdownJobs(st.nextSessionId, cfg.countdownDuration));
      AcceptKeepsSessions(st, n, sender, target, q.bet, CountdownJobs(st.nextSessionId, cfg.countdownDuration));
    }
  }

  lemma AcceptKeepsIndexes(st: Coordinator, n: Coordinator, q: DuelRequest)
    requires IndexesValid(st)
    requires n.pending == Unindex(st.pending, q.target, q) && n.sent == Unindex(st.sent, q.sender, q)
    ensures IndexesValid(n)
  {
    IndexesValidFromContents(st, n);
  }

  lemma AcceptKeepsTasks(st: Coordinator, n: Coordinator, q: DuelRequest, countdown: set<Job>)
    requires Valid(st) && Registered(st, q)
    requires n.pending == Unindex(st.pending, q.target, q)
    requires n.timeoutTasks == st.timeoutTasks - {q.id}
    requires n.jobs == st.jobs - {Expire(q)} + countdown
    requires forall j :: j in countdown ==> !j.Expire?
    requires n.nextRequestId == st.nextRequestId
    ensures TasksValid(n)
  {
    DistinctRequestsDistinctIds(st);
    assert forall x :: Registered(n, x) <==> Registered(st, x) && x != q;
  }

  lemma AcceptKeepsSessions(st: Coordinator, n: Coordinator, sender: PlayerId, target: PlayerId, bet: int, countdown: set<Job>)
    requires SessionsValid(st)
    requires !InDuel(st, target) && !InDuel(st, sender)
    requires n.sessions == st.sessions[st.nextSessionId := NewSession(st.nextSessionId, sender, target, bet)]
    requires n.activeDuels == st.activeDuels[sender := st.nextSessionId][target := st.nextSessionId]
    requires n.nextSessionId == st.nextSessionId + 1
    requires n.jobs <= st.jobs + countdown
    requires forall j :: j in countdown ==> !j.Expire? && j.session == st.nextSessionId
    ensures SessionsValid(n)
  {
    var sid := st.nextSessionId;
    forall p | p in n.activeDuels
      ensures n.activeDuels[p] in n.sessions && n.sessions[n.activeDuels[p]].active
      ensures HasPlayer(n.sessions[n.activeDuels[p]], p)
    {
      if p != sender && p != target {
        assert st.activeDuels[p] in st.sessions;
      }
    }
    forall x | x in n.sessions && n.sessions[x].active
      ensures n.sessions[x].player1 in n.activeDuels && n.activeDuels[n.sessions[x].player1] == x
      ensures n.sessions[x].player2 in n.activeDuels && n.activeDuels[n.sessions[x].player2] == x
    {
      if x != sid {
        assert st.sessions[x].player1 in st.activeDuels && st.sessions[x].player2 in st.activeDuels;
      }
    }
  }

  lemma EndDuelPreservesValid(st: Coordinator, winner: PlayerId, loser: PlayerId, replies: LedgerReplies)
    requires Valid(st)
    ensures Valid(EndDuel(st, winner, loser, replies).next)
  {
    var n := EndDuel(st, winner, loser, replies).next;
    if FindSession(st, winner, loser).Some? {
      var sid := FindSession(st, winner, loser).value;
      var s := st.sessions[sid];
      assert s.active;
      assert IndexesValid(n) && TasksValid(n);
      forall p | p in n.activeDuels
        ensures n.activeDuels[p] in n.sessions && n.sessions[n.activeDuels[p]].active
        ensures HasPlayer(n.sessions[n.activeDuels[p]], p)
      {
        assert p in st.activeDuels && n.activeDuels[p] == st.activeDuels[p];
      }
      forall x | x in n.sessions && n.sessions[x].active
        ensures n.sessions[x].player1 in n.activeDuels && n.activeDuels[n.sessions[x].player1] == x
        ensures n.sessions[x].player2 in n.activeDuels && n.activeDuels[n.sessions[x].player2] == x
      {
        assert x != sid && st.sessions[x] == n.sessions[x];
        assert st.activeDuels[s.player1] == sid && st.activeDuels[s.player2] == sid;
        assert st.activeDuels[st.sessions[x].player1] == x && st.activeDuels[st.sessions[x].player2] == x;
      }
      assert SessionsValid(n);
    }
  }

  lemma FireJobPreservesValid(st: Coordinator, job: Job)
    requires Valid(st) && job in st.jobs
    ensures Valid(FireJob(st, job).next)
  {
    var st' := st.(jobs := st.jobs - {job});
    match job
    case Expire(q) =>
      ExpireKeepsIndexes(st', ExpireRequest(st', q).next, q);
      ExpireKeepsTasks(st, ExpireRequest(st', q).next, q);
      assert SessionsValid(ExpireRequest(st', q).next);
    case Tick(sid, seconds) =>
      assert Valid(st');
    case Begin(sid) =>
      BeginKeepsValid(st, sid);
  }

  lemma ExpireKeepsIndexes(st: Coordinator, n: Coordinator, q: DuelRequest)
    requires IndexesValid(st)
    requires n.pending == Unindex(st.pending, q.target, q) && n.sent == Unindex(st.sent, q.sender, q)
    ensures IndexesValid(n)
  {
    IndexesValidFromContents(st, n);
  }

  lemma ExpireKeepsTasks(st: Coordinator, n: Coordinator, q: DuelRequest)
    requires Valid(st) && Expire(q) in st.jobs
    requires n.pending == Unindex(st.pending, q.target, q)
    requires n.timeoutTasks == st.timeoutTasks - {q.id}
    requires n.jobs == st.jobs - {Expire(q)}
    requires n.nextRequestId == st.nextRequestId
    ensures TasksValid(n)
  {
    assert Registered(st, q);
    DistinctRequestsDistinctIds(st);
    assert forall x :: Registered(n, x) <==> Registered(st, x) && x != q;
  }

  lemma BeginKeepsValid(st: Coordinator, sid: SessionId)
    requires Valid(st) && Begin(sid) in st.jobs
    ensures Valid(FireJob(st, Begin(sid)).next)
  {
    var st' := st.(jobs := st.jobs - {Begin(sid)});
    var n := BeginDuel(st', sid).next;
    assert IndexesValid(n);
    assert forall x :: Registered(n, x) <==> Registered(st, x);
    assert TasksValid(n);
    forall p | p in n.activeDuels
      ensures n.activeDuels[p] in n.sessions && n.sessions[n.activeDuels[p]].active
      ensures HasPlayer(n.sessions[n.activeDuels[p]], p)
    {
      assert st.activeDuels[p] in st.sessions;
    }
    assert SessionsValid(n);
  }

  lemma PurgePreservesValid(st: Coordinator, p: PlayerId)
    requires Valid(st)
    ensures Valid(PurgeRequestsOf(st, p))
  {
    WithdrawReceivedPreservesValid(st, p);
    WithdrawSentPreservesValid(WithdrawReceived(st, p), p);
  }

  lemma WithdrawReceivedPreservesValid(st: Coordinator, p: PlayerId)
    requires Valid(st)
    ensures Valid(WithdrawReceived(st, p))
  {
    var n := WithdrawReceived(st, p);
    var received := Bucket(st.pending, p);
    assert forall q :: q in received <==> Registered(st, q) && q.target == p;
    DistinctRequestsDistinctIds(st);
    assert forall x :: Registered(n, x) <==> Registered(st, x) && x.target != p;
    TasksAfterCancel(st, n, received);
  }

  lemma WithdrawSentPreservesValid(st: Coordinator, p: PlayerId)
    requires Valid(st)
    ensures Valid(WithdrawSent(st, p))
  {
    var n := WithdrawSent(st, p);
    var sentBy := Bucket(st.sent, p);
    assert forall q :: q in sentBy <==> Registered(st, q) && q.sender == p;
    DistinctRequestsDistinctIds(st);
    assert forall x :: Registered(n, x) <==> Registered(st, x) && x.sender != p;
    TasksAfterCancel(st, n, sentBy);
  }

  /** Withdrawing exactly the registered requests `rs` and cancelling their timers keeps
      the task part of the invariant. */
  lemma TasksAfterCancel(st: Coordinator, n: Coordinator, rs: set<DuelRequest>)
    requires Valid(st) && IndexesValid(n)
    requires forall q :: q in rs ==> Registered(st, q)
    requires forall x :: Registered(n, x) <==> Registered(st, x) && x !in rs
    requires forall a, b :: Registered(st, a) && Registered(st, b) && a != b ==> a.id != b.id
    requires forall q :: q in rs ==> q.id !in n.timeoutTasks
    requires forall i :: i in n.timeoutTasks <==> i in st.timeoutTasks && forall q :: q in rs ==> q.id != i
    requires forall i :: i in n.timeoutTasks ==> n.timeoutTasks[i] == st.timeoutTasks[i]
    requires forall q :: q in rs && q.id in st.timeoutTasks ==> st.timeoutTasks[q.id] !in n.jobs
    requires n.jobs <= st.jobs
    requires forall j :: j in st.jobs && j !in n.jobs ==> exists q :: q in rs && q.id in st.timeoutTasks && st.timeoutTasks[q.id] == j
    requires n.nextRequestId == st.nextRequestId
    requires n.sessions == st.sessions && n.activeDuels == st.activeDuels && n.nextSessionId == st.nextSessionId
    ensures Valid(n)
  {
    forall x | Registered(n, x)
      ensures x.id in n.timeoutTasks && n.timeoutTasks[x.id] == Expire(x) && Expire(x) in n.jobs
    {
      assert forall q :: q in rs ==> q.id != x.id;
    }
    forall x | Expire(x) in n.jobs
      ensures Registered(n, x)
    {
      assert Registered(st, x);
    }
    assert TasksValid(n);
  }

  lemma HandlePlayerQuitPreservesValid(st: Coordinator, p: PlayerId, replies: LedgerReplies)
    requires Valid(st)
    ensures Valid(HandlePlayerQuit(st, p, replies).next)
  {
    if p in st.activeDuels && st.sessions[st.activeDuels[p]].active {
      match OpponentId(st.sessions[st.activeDuels[p]], p)
      case None =>
        PurgePreservesValid(st, p);
      case Some(opponent) =>
        EndDuelPreservesValid(st, opponent, p, replies);
        PurgePreservesValid(EndDuel(st, opponent, p, replies).next, p);
    } else {
      PurgePreservesValid(st, p);
    }
  }

  /** After `cancelAllDuels` no session is live and the invariant still holds. */
  lemma CancelAllPreservesValid(st: Coordinator)
    requires Valid(st)
    ensures Valid(CancelAllDuels(st))
    ensures forall sid :: sid in CancelAllDuels(st).sessions ==> !CancelAllDuels(st).sessions[sid].active
  {
    var n := CancelAllDuels(st);
    forall sid | sid in n.sessions
      ensures !n.sessions[sid].active
    {
      if st.sessions[sid].active {
        assert st.activeDuels[st.sessions[sid].player1] == sid;
        assert sid in st.activeDuels.Values;
      }
    }
    forall x | Expire(x) in st.jobs
      ensures Expire(x) !in n.jobs
    {
      assert st.timeoutTasks[x.id] == Expire(x);
    }
    assert Valid(n);
  }
}

=== FILE: manager_properties.dfy ===
/** Properties of the `DuellManager` operations that relate several calls, or a call
    and the queries: settlement, idempotence, forfeits, and the request round trip. */
module ManagerProperties {
  import opened Types
  import opened Requests
  import opened Sessions
  import opened Economy
  import opened Registry
  import opened ManagerState
  import opened DuelManager
  import opened ManagerInvariant

  /** `endDuel(winner, loser)` for the two distinct players of one live duel ends that
      duel, deregisters both, and moves a positive stake from the loser to the winner
      (a friendly duel leaves the ledger alone). */
  lemma EndDuelSettlesStake(st: Coordinator, winner: PlayerId, loser: PlayerId, replies: LedgerReplies)
    requires Valid(st)
    requires AreInSameDuel(st, winner, loser) && winner != loser
    ensures var s := st.sessions[st.activeDuels[winner]];
      var r := EndDuel(st, winner, loser, replies);
      && !InDuel(r.next, winner) && !InDuel(r.next, loser)
      && !r.next.sessions[st.activeDuels[winner]].active
      && (s.bet > 0 ==> r.next.ledger == TransferMoney(st.ledger, loser, winner, s.bet, replies).ledger)
      && (Sessions.IsFriendly(s) ==> r.next.ledger == st.ledger)
      && r.notices == ResultNotices(winner, loser, s.bet > 0)
  {
    var sid := st.activeDuels[winner];
    var s := st.sessions[sid];
    assert HasPlayer(s, winner) && HasPlayer(s, loser);
    assert FindSession(st, winner, loser) == Some(sid);
  }

  /** `endDuel` is idempotent: once it has ended the duel of `winner`/`loser`, a second call
      (say a death racing an explicit end) finds no session and changes nothing, so the
      stake is settled at most once. The players must not sit in two different duels. */
  lemma EndDuelIdempotent(st: Coordinator, winner: PlayerId, loser: PlayerId, first: LedgerReplies, second: LedgerReplies)
    requires Valid(st)
    requires InDuel(st, winner) && InDuel(st, loser) ==> AreInSameDuel(st, winner, loser)
    ensures var once := EndDuel(st, winner, loser, first).next;
      Valid(once) && EndDuel(once, winner, loser, second) == Step(once, [])
  {
    EndDuelPreservesValid(st, winner, loser, first);
    var once := EndDuel(st, winner, loser, first).next;
    match FindSession(st, winner, loser)
    case None =>
    case Some(sid) =>
      var s := st.sessions[sid];
      if winner in st.activeDuels {
        assert HasPlayer(s, winner);
      }
      if loser in st.activeDuels {
        assert st.activeDuels[loser] == sid;
        assert HasPlayer(s, loser);
      }
      assert FindSession(once, winner, loser).None?;
  }

  /** A duel ended by `endDuel` stays out of the registry for the rest of its life:
      calling `endDuel` again with either order of the players is a no-op too. */
  lemma EndDuelSettlesOnce(st: Coordinator, winner: PlayerId, loser: PlayerId, first: LedgerReplies, second: LedgerReplies)
    requires Valid(st)
    requires AreInSameDuel(st, winner, loser)
    ensures var once := EndDuel(st, winner, loser, first).next;
      Valid(once) && EndDuel(once, loser, winner, second) == Step(once, [])
      && EndDuel(once, winner, loser, second).next.ledger == once.ledger
  {
    EndDuelIdempotent(st, winner, loser, first, second);
    var once := EndDuel(st, winner, loser, first).next;
    var s := st.sessions[st.activeDuels[winner]];
    assert HasPlayer(s, winner) && HasPlayer(s, loser);
    assert FindSession(once, loser, winner).None?;
  }

  /** `handlePlayerQuit` of a dueling player hands the duel to the opponent: it is
      `endDuel(opponent, player)`, after which neither plays, followed by the
      "player left" message to the opponent. */
  lemma QuitForfeitsToOpponent(st: Coordinator, p: PlayerId, replies: LedgerReplies)
    requires Valid(st) && InDuel(st, p)
    ensures var sid := st.activeDuels[p];
      var opponent := OpponentId(st.sessions[sid], p).value;
      var r := HandlePlayerQuit(st, p, replies);
      var ended := EndDuel(st, opponent, p, replies);
      && r.next.ledger == ended.next.ledger
      && r.next.sessions == ended.next.sessions && !r.next.sessions[sid].active
      && !InDuel(r.next, p) && !InDuel(r.next, opponent)
      && r.notices == ended.notices + [Message(opponent, "duel.player-left")]
  {
    var sid := st.activeDuels[p];
    var s := st.sessions[sid];
    assert s.active && HasPlayer(s, p);
    var opponent := OpponentId(s, p).value;
    assert st.activeDuels[opponent] == sid;
    assert FindSession(st, opponent, p) == Some(sid);
    EndDuelPreservesValid(st, opponent, p, replies);
  }

  /** With two distinct participants, the quitter pays the stake to the opponent. */
  lemma QuitPaysOpponent(st: Coordinator, p: PlayerId, replies: LedgerReplies)
    requires Valid(st) && InDuel(st, p)
    requires st.sessions[st.activeDuels[p]].player1 != st.sessions[st.activeDuels[p]].player2
    ensures var s := st.sessions[st.activeDuels[p]];
      var opponent := OpponentId(s, p).value;
      s.bet > 0 ==> HandlePlayerQuit(st, p, replies).next.ledger == TransferMoney(st.ledger, p, opponent, s.bet, replies).ledger
  {
    var sid := st.activeDuels[p];
    var s := st.sessions[sid];
    assert HasPlayer(s, p);
    var opponent := OpponentId(s, p).value;
    OpponentIsInvolution(s, p);
    assert st.activeDuels[opponent] == sid;
    QuitForfeitsToOpponent(st, p, replies);
    EndDuelSettlesStake(st, opponent, p, replies);
  }

  /** A friendly challenge is never refused for money: only proximity decides. */
  lemma FriendlyChallengeNeedsOnlyProximity(st: Coordinator, cfg: Config, sender: PlayerId, target: PlayerId, bet: int, inRange: bool)
    requires Requests.IsFriendly(DuelRequest(st.nextRequestId, sender, target, bet))
    ensures CreateRequest(st, cfg, sender, target, bet, inRange).ok <==> inRange
  {
  }

  /** A created request gets an id no registered request has, so repeating the very same
      challenge registers a second, distinct request. */
  lemma RepeatedChallengeIsDistinct(st: Coordinator, cfg: Config, sender: PlayerId, target: PlayerId, bet: int)
    requires Valid(st)
    requires CreateRequest(st, cfg, sender, target, bet, true).ok
    ensures var once := CreateRequest(st, cfg, sender, target, bet, true).next;
      var twice := CreateRequest(once, cfg, sender, target, bet, true);
      var a := DuelRequest(st.nextRequestId, sender, target, bet);
      var b := DuelRequest(once.nextRequestId, sender, target, bet);
      && (forall x :: Registered(st, x) ==> x.id != a.id)
      && twice.ok && a != b && !SameRequest(a, b)
      && Registered(twice.next, a) && Registered(twice.next, b)
  {
    var once := CreateRequest(st, cfg, sender, target, bet, true).next;
    assert once.ledger == st.ledger;
  }

  /** The first testable property of the plugin: a challenge between two idle players that
      is accepted (proximity holding both times) puts both in one fresh session with the
      challenge's stake, and leaves no request from the sender to the target. */
  lemma ChallengeThenAccept(st: Coordinator, cfg: Config, sender: PlayerId, target: PlayerId, bet: int)
    requires Valid(st)
    requires !InDuel(st, sender) && !InDuel(st, target)
    requires !HasPendingRequest(st, target, sender)
    requires CreateRequest(st, cfg, sender, target, bet, true).ok
    ensures var created := CreateRequest(st, cfg, sender, target, bet, true).next;
      Valid(created) && !InDuel(created, sender) && !InDuel(created, target)
    ensures var created := CreateRequest(st, cfg, sender, target, bet, true).next;
      var accepted := AcceptRequest(created, cfg, target, sender, true);
      && accepted.ok
      && InDuel(accepted.next, sender) && InDuel(accepted.next, target)
      && AreInSameDuel(accepted.next, sender, target)
      && accepted.next.sessions[accepted.next.activeDuels[sender]] == NewSession(created.nextSessionId, sender, target, bet)
      && !HasPendingRequest(accepted.next, target, sender)
  {
    CreatedRequestIsOnlyMatch(st, cfg, sender, target, bet);
    var created := CreateRequest(st, cfg, sender, target, bet, true).next;
    var q := DuelRequest(st.nextRequestId, sender, target, bet);
    var accepted := AcceptRequest(created, cfg, target, sender, true);
    assert accepted.ok;
    assert !HasPendingRequest(accepted.next, target, sender) by {
      assert forall x :: x in Bucket(accepted.next.pending, target) ==> x in Bucket(created.pending, target) && x != q;
    }
  }

  /** After a challenge between players with no earlier request between them, the new
      request is the one `getPendingRequest` finds. */
  lemma CreatedRequestIsOnlyMatch(st: Coordinator, cfg: Config, sender: PlayerId, target: PlayerId, bet: int)
    requires Valid(st)
    requires !HasPendingRequest(st, target, sender)
    requires CreateRequest(st, cfg, sender, target, bet, true).ok
    ensures var created := CreateRequest(st, cfg, sender, target, bet, true).next;
      && Valid(created)
      && (forall x :: x in Bucket(created.pending, target) && x.sender == sender ==> x == DuelRequest(st.nextRequestId, sender, target, bet))
      && GetPendingRequest(created, target, sender) == Some(DuelRequest(st.nextRequestId, sender, target, bet))
  {
    CreatePreservesValid(st, cfg, sender, target, bet, true);
    var created := CreateRequest(st, cfg, sender, target, bet, true).next;
    var q := DuelRequest(st.nextRequestId, sender, target, bet);
    assert forall x :: x in Bucket(created.pending, target) && x.sender == sender ==> x == q;
  }

  /** Accepting cancels the expiry: its job is no longer scheduled, and even a late run of
      the callback would change neither index, nor any duel, nor tell anybody. */
  lemma AcceptDisarmsExpiry(st: Coordinator, cfg: Config, target: PlayerId, sender: PlayerId, inRange: bool)
    requires Valid(st) && !InDuel(st, target) && !InDuel(st, sender)
    requires AcceptRequest(st, cfg, target, sender, inRange).ok
    ensures var q := GetPendingRequest(st, target, sender).value;
      var next := AcceptRequest(st, cfg, target, sender, inRange).next;
      var late := ExpireRequest(next, q);
      && Expire(q) !in next.jobs
      && late.next.pending == next.pending && late.next.sent == next.sent
      && DuelsKept(next, late.next) && late.notices == []
  {
  }

  /** A challenge left alone until its expiry job runs is gone from both indexes and the
      sender is told it expired. */
  lemma ChallengeExpires(st: Coordinator, cfg: Config, sender: PlayerId, target: PlayerId, bet: int)
    requires Valid(st)
    requires !HasPendingRequest(st, target, sender)
    requires CreateRequest(st, cfg, sender, target, bet, true).ok
    ensures var created := CreateRequest(st, cfg, sender, target, bet, true).next;
      var q := DuelRequest(st.nextRequestId, sender, target, bet);
      && Valid(created) && Expire(q) in created.jobs
      && var fired := FireJob(created, Expire(q));
      && !HasPendingRequest(fired.next, target, sender)
      && !Registered(fired.next, q)
      && fired.notices == [Message(sender, "request.expired")]
  {
    CreatePreservesValid(st, cfg, sender, target, bet, true);
    var created := CreateRequest(st, cfg, sender, target, bet, true).next;
    var q := DuelRequest(st.nextRequestId, sender, target, bet);
    var fired := FireJob(created, Expire(q));
    assert forall x :: x in Bucket(fired.next.pending, target) ==> x in Bucket(created.pending, target) && x != q;
    assert forall x :: x in Bucket(created.pending, target) && x.sender == sender ==> x == q;
  }

  /** `cancelAllDuels` twice is `cancelAllDuels` once. */
  lemma CancelAllIdempotent(st: Coordinator)
    ensures CancelAllDuels(CancelAllDuels(st)) == CancelAllDuels(st)
  {
    var once := CancelAllDuels(st);
    assert once.activeDuels.Values == {};
    assert CancelAllDuels(once).sessions == once.sessions;
  }

  /** With nothing registered and no timer stored, `cancelAllDuels` changes nothing. */
  lemma CancelAllOnIdleIsNoop(st: Coordinator)
    requires st.activeDuels == map[] && st.timeoutTasks == map[] && st.pending == map[] && st.sent == map[]
    ensures CancelAllDuels(st) == st
  {
    assert st.activeDuels.Values == {};
    assert CancelAllDuels(st).sessions == st.sessions;
  }

  /** After `cancelAllDuels` nobody is in a duel or has a request, and no expiry is scheduled. */
  lemma CancelAllLeavesNothing(st: Coordinator, p: PlayerId, q: PlayerId)
    requires Valid(st)
    ensures var n := CancelAllDuels(st);
      Valid(n) && !InDuel(n, p) && !HasPendingRequest(n, p, q) && !IsDuelInProgress(n, p)
      && (forall j :: j in n.jobs ==> !j.Expire?)
      && (forall sid :: sid in n.sessions ==> !n.sessions[sid].active)
  {
    CancelAllPreservesValid(st);
  }
}

=== FILE: manager_state.dfy ===
/** The state owned by `DuellManager`: the two request indexes, the timeout-task map,
    the participant -> session map, and the scheduler's pending jobs; plus the
    representation invariant every operation preserves and the read-only queries. */
module ManagerState {
  import opened Types
  import opened Requests
  import opened Sessions
  import opened Economy
  import opened Registry

  /** A task handed to the server scheduler and not yet run or cancelled:
      the expiry of a request, one "seconds remaining" tick of a countdown,
      or the end of a countdown. Each carries the data its callback captured. */
  datatype Job =
    | Expire(req: DuelRequest)
    | Tick(session: SessionId, seconds: nat)
    | Begin(session: SessionId)

  /** The configuration values the coordinator reads. */
  datatype Config = Config(countdownDuration: nat, allowNegativeBalance: bool)

  /** `sessions` holds every session object ever created (ended ones included, since
      scheduled countdown jobs keep referring to them); `activeDuels` is the registry. */
  datatype Coordinator = Coordinator(
    pending: Index,
    sent: Index,
    activeDuels: map<PlayerId, SessionId>,
    timeoutTasks: map<RequestId, Job>,
    sessions: map<SessionId, DuelSession>,
    jobs: set<Job>,
    ledger: Ledger,
    nextRequestId: RequestId,
    nextSessionId: SessionId)

  /** A request is registered when it sits in its target's bucket of `pendingRequests`. */
  ghost predicate Registered(st: Coordinator, q: DuelRequest)
  {
    q in Bucket(st.pending, q.target)
  }

  /** Both indexes hold the same requests, each under its own key, with no empty bucket. */
  ghost predicate IndexesValid(st: Coordinator)
  {
    && NoEmptyBuckets(st.pending)
    && NoEmptyBuckets(st.sent)
    && (forall t, q :: t in st.pending && q in st.pending[t] ==> q.target == t)
    && (forall s, q :: s in st.sent && q in st.sent[s] ==> q.sender == s)
    && (forall q: DuelRequest :: q in Bucket(st.pending, q.target) <==> q in Bucket(st.sent, q.sender))
  }

  /** Every registered request has exactly its own expiry task stored under its id and
      still scheduled; every stored task and every scheduled expiry belongs to a
      registered request; request ids come from the counter. */
  ghost predicate TasksValid(st: Coordinator)
  {
    && (forall q: DuelRequest :: Registered(st, q) ==>
          && q.id < st.nextRequestId
          && q.id in st.timeoutTasks
          && st.timeoutTasks[q.id] == Expire(q)
          && Expire(q) in st.jobs)
    && (forall i :: i in st.timeoutTasks ==>
          st.timeoutTasks[i].Expire? && st.timeoutTasks[i].req.id == i && Registered(st, st.timeoutTasks[i].req))
    && (forall q: DuelRequest :: Expire(q) in st.jobs ==> Registered(st, q))
  }

  /** Sessions are stored under their own ids; countdown jobs refer to stored sessions;
      a registered player maps to an active session holding them; and every active session
      is registered under both of its players: at most one live session per player. */
  ghost predicate SessionsValid(st: Coordinator)
  {
    && (forall sid :: sid in st.sessions ==> st.sessions[sid].id == sid && sid < st.nextSessionId)
    && (forall j :: j in st.jobs && !j.Expire? ==> j.session in st.sessions)
    && (forall p :: p in st.activeDuels ==>
          && st.activeDuels[p] in st.sessions
          && st.sessions[st.activeDuels[p]].active
          && HasPlayer(st.sessions[st.activeDuels[p]], p))
    && (forall sid :: sid in st.sessions && st.sessions[sid].active ==>
          && st.sessions[sid].player1 in st.activeDuels
          && st.activeDuels[st.sessions[sid].player1] == sid
          && st.sessions[sid].player2 in st.activeDuels
          && st.activeDuels[st.sessions[sid].player2] == sid)
  }

  ghost predicate Valid(st: Coordinator)
  {
    IndexesValid(st) && TasksValid(st) && SessionsValid(st)
  }

  /** The manager as constructed: everything empty. */
  function Init(ledger: Ledger): (st: Coordinator)
    ensures Valid(st)
    ensures st.pending == map[] && st.sent == map[] && st.activeDuels == map[] && st.jobs == {}
  {
    Coordinator(map[], map[], map[], map[], map[], {}, ledger, 0, 0)
  }

  // ---------------------------------------------------------------- queries

  /** `isInDuel`. */
  predicate InDuel(st: Coordinator, p: PlayerId)
  {
    p in st.activeDuels
  }

  /** `hasPendingRequest(target, sender)`: scans the target's bucket for that sender. */
  predicate HasPendingRequest(st: Coordinator, target: PlayerId, sender: PlayerId)
  {
    exists q :: q in Bucket(st.pending, target) && q.sender == sender
  }

  /** `areInSameDuel`: both registered, to the same session (sessions compare by id,
      and the registry stores session ids). */
  predicate AreInSameDuel(st: Coordinator, a: PlayerId, b: PlayerId)
  {
    a in st.activeDuels && b in st.activeDuels && st.activeDuels[a] == st.activeDuels[b]
  }

  /** `isDuelInProgress`: registered, and the countdown of the session has elapsed. */
  predicate IsDuelInProgress(st: Coordinator, p: PlayerId)
  {
    p in st.activeDuels && st.activeDuels[p] in st.sessions && st.sessions[st.activeDuels[p]].started
  }

  /** The live session a player takes part in, if any. */
  ghost predicate InLiveSession(st: Coordinator, p: PlayerId, sid: SessionId)
  {
    sid in st.sessions && st.sessions[sid].active && HasPlayer(st.sessions[sid], p)
  }

  /** In a valid state the registry says exactly which players take part in a live session. */
  lemma InDuelIffLiveSession(st: Coordinator, p: PlayerId)
    requires Valid(st)
    ensures InDuel(st, p) <==> exists sid :: InLiveSession(st, p, sid)
    ensures InDuel(st, p) ==> InLiveSession(st, p, st.activeDuels[p])
  {
    if InDuel(st, p) {
      assert InLiveSession(st, p, st.activeDuels[p]);
    }
    if sid :| InLiveSession(st, p, sid) {
      var s := st.sessions[sid];
      if p == s.player1 {
        assert st.activeDuels[s.player1] == sid;
      } else {
        assert st.activeDuels[s.player2] == sid;
      }
    }
  }

  /** Two players are in the same duel exactly when one live session holds them both,
      and then they agree on whether the fight is in progress. */
  lemma SameDuelIffSharedSession(st: Coordinator, a: PlayerId, b: PlayerId)
    requires Valid(st)
    ensures AreInSameDuel(st, a, b) <==> exists sid :: InLiveSession(st, a, sid) && InLiveSession(st, b, sid)
    ensures AreInSameDuel(st, a, b) ==> AreInSameDuel(st, b, a) && (IsDuelInProgress(st, a) <==> IsDuelInProgress(st, b))
  {
    InDuelIffLiveSession(st, a);
    InDuelIffLiveSession(st, b);
    if AreInSameDuel(st, a, b) {
      assert InLiveSession(st, a, st.activeDuels[a]) && InLiveSession(st, b, st.activeDuels[a]);
    }
    if sid :| InLiveSession(st, a, sid) && InLiveSession(st, b, sid) {
      var s := st.sessions[sid];
      assert st.activeDuels[s.player1] == sid && st.activeDuels[s.player2] == sid;
    }
  }

  /** In a valid state a registered request is identified by its id alone, so Java's
      id-based `equals` and structural equality agree on the requests the indexes hold. */
  lemma RegisteredRequestsIdentifiedById(st: Coordinator, a: DuelRequest, b: DuelRequest)
    requires Valid(st) && Registered(st, a) && Registered(st, b)
    ensures a == b <==> SameRequest(a, b)
  {
    if SameRequest(a, b) {
      assert Expire(a) == st.timeoutTasks[a.id] == Expire(b);
    }
  }

  /** Sessions stored in a valid state are told apart by id, so comparing registry entries
      by session id is comparing the session objects with `equals`. */
  lemma StoredSessionsIdentifiedById(st: Coordinator, x: SessionId, y: SessionId)
    requires Valid(st) && x in st.sessions && y in st.sessions
    ensures x == y <==> SameSession(st.sessions[x], st.sessions[y])
  {
  }

  /** The request matching `sender` with the smallest id. */
  predicate FirstMatch(st: Coordinator, target: PlayerId, sender: PlayerId, q: DuelRequest)
  {
    && q in Bucket(st.pending, target) && q.sender == sender
    && forall x :: x in Bucket(st.pending, target) && x.sender == sender ==> q.id <= x.id
  }

  lemma {:induction false} SmallestIdExists(s: set<DuelRequest>)
    requires s != {}
    ensures exists q :: q in s && forall x :: x in s ==> q.id <= x.id
    decreases |s|
  {
    var y :| y in s;
    if s - {y} != {} {
      SmallestIdExists(s - {y});
      var m :| m in s - {y} && forall x :: x in s - {y} ==> m.id <= x.id;
      if y.id < m.id {
        assert forall x :: x in s ==> y.id <= x.id;
      } else {
        assert forall x :: x in s ==> m.id <= x.id;
      }
    } else {
      assert s == {y};
    }
  }

  /** `getPendingRequest(target, sender)`: a request from `sender` in the target's bucket,
      or `None`. Java returns the first match in hash-set iteration order, which is
      unspecified; the model picks the match with the smallest id. */
  function GetPendingRequest(st: Coordinator, target: PlayerId, sender: PlayerId): (r: Option<DuelRequest>)
    requires Valid(st)
    ensures r.Some? <==> HasPendingRequest(st, target, sender)
    ensures r.Some? ==> Registered(st, r.value) && r.value.sender == sender && r.value.target == target
    ensures r.Some? ==> r.value in Bucket(st.pending, target) && r.value in Bucket(st.sent, sender)
  {
    var matching := set q | q in Bucket(st.pending, target) && q.sender == sender;
    assert forall q :: q in Bucket(st.pending, target) && q.sender == sender ==> q in matching;
    if matching == {} then None
    else
      SmallestIdExists(matching);
      assert forall a, b :: FirstMatch(st, target, sender, a) && FirstMatch(st, target, sender, b) ==> a == b by {
        forall a, b | FirstMatch(st, target, sender, a) && FirstMatch(st, target, sender, b) ensures a == b {
          RegisteredRequestsIdentifiedById(st, a, b);
        }
      }
      var q :| FirstMatch(st, target, sender, q);
      Some(q)
  }
}

=== FILE: registry.dfy ===
/** The two request indexes of the coordinator, `pendingRequests` (by target) and
    `sentRequests` (by sender), each a map from a player to a bucket of requests. */
module Registry {
  import opened Types
  import opened Requests

  type Index = map<PlayerId, set<DuelRequest>>

  /** The bucket of a key, with a missing key read as an empty bucket. */
  function Bucket(idx: Index, k: PlayerId): set<DuelRequest>
  {
    if k in idx then idx[k] else {}
  }

  /** Buckets that become empty are removed, so no key maps to an empty set. */
  ghost predicate NoEmptyBuckets(idx: Index)
  {
    forall k :: k in idx ==> idx[k] != {}
  }

  /** `computeIfAbsent(k, new HashSet).add(q)`. */
  function Insert(idx: Index, k: PlayerId, q: DuelRequest): (r: Index)
    ensures forall k', x :: x in Bucket(r, k') <==> x in Bucket(idx, k') || (k' == k && x == q)
    ensures NoEmptyBuckets(idx) ==> NoEmptyBuckets(r)
  {
    idx[k := Bucket(idx, k) + {q}]
  }

  /** `if (idx.containsKey(k) && idx.get(k).remove(q) && idx.get(k).isEmpty()) idx.remove(k)`:
      removes `q` from the bucket of `k`, dropping the bucket once it is empty; a request
      that is not there leaves the index as it is. */
  function Unindex(idx: Index, k: PlayerId, q: DuelRequest): (r: Index)
    ensures forall k', x :: x in Bucket(r, k') <==> x in Bucket(idx, k') && !(k' == k && x == q)
    ensures NoEmptyBuckets(idx) ==> NoEmptyBuckets(r)
    ensures q !in Bucket(idx, k) ==> r == idx
  {
    if k in idx && q in idx[k] then
      if idx[k] - {q} == {} then idx - {k} else idx[k := idx[k] - {q}]
    else idx
  }

  /** Removes every request of `rs` from whatever bucket holds it, dropping emptied buckets. */
  function UnindexAll(idx: Index, rs: set<DuelRequest>): (r: Index)
    ensures forall k', x :: x in Bucket(r, k') <==> x in Bucket(idx, k') && x !in rs
    ensures NoEmptyBuckets(r)
    ensures r.Keys <= idx.Keys
  {
    var r := map k | k in idx && idx[k] - rs != {} :: idx[k] - rs;
    assert forall k' :: Bucket(r, k') == Bucket(idx, k') - rs by {
      forall k' ensures Bucket(r, k') == Bucket(idx, k') - rs {
        if k' in idx && idx[k'] - rs != {} {
          assert k' in r;
        }
      }
    }
    r
  }
}

=== FILE: requests.dfy ===
/** The immutable duel request value (`DuellRequest`). */
module Requests {
  import opened Types

  /** A challenge from `sender` to `target` with a stake of `bet` (0 or less: friendly).
      All fields are fixed at construction; the creation instant is not modelled. */
  datatype DuelRequest = DuelRequest(id: RequestId, sender: PlayerId, target: PlayerId, bet: int)

  /** A request without a positive stake. */
  predicate IsFriendly(q: DuelRequest)
  {
    q.bet <= 0
  }

  /** `DuellRequest.equals`: two requests are the same request exactly when their ids agree. */
  predicate SameRequest(a: DuelRequest, b: DuelRequest)
  {
    a.id == b.id
  }

  /** `DuellRequest.hashCode`: the hash of the id. */
  function RequestHash(q: DuelRequest): int
  {
    q.id
  }

  /** Java's equals/hashCode contract, and that the other fields play no part in equality. */
  lemma SameRequestContract(a: DuelRequest, b: DuelRequest)
    ensures SameRequest(a, b) ==> RequestHash(a) == RequestHash(b)
    ensures SameRequest(a, b) <==> SameRequest(b, a)
    ensures a.sender == b.sender && a.target == b.target && a.bet == b.bet ==> (SameRequest(a, b) <==> a == b)
  {
  }
}

=== FILE: sessions.dfy ===
/** The duel session value (`DuellSession`) and its two one-way flags. */
module Sessions {
  import opened Types

  /** An accepted duel. `active` is cleared once by `End` and never set again;
      `started` is set by `Start` when the countdown has elapsed. */
  datatype DuelSession = DuelSession(
    id: SessionId,
    player1: PlayerId,
    player2: PlayerId,
    bet: int,
    active: bool,
    started: bool)

  /** The constructor: a fresh session is active and still counting down. */
  function NewSession(id: SessionId, player1: PlayerId, player2: PlayerId, bet: int): (s: DuelSession)
    ensures s.active && !s.started
    ensures s.id == id && HasPlayer(s, player1) && HasPlayer(s, player2)
    ensures s.player1 == player1 && s.player2 == player2 && s.bet == bet
  {
    DuelSession(id, player1, player2, bet, true, false)
  }

  /** `start()`: marks the fight as begun and leaves every other field alone. */
  function Start(s: DuelSession): (r: DuelSession)
    ensures r.started
    ensures r.active == s.active
    ensures r.(started := s.started) == s
  {
    s.(started := true)
  }

  /** `end()`: marks the session as over and leaves every other field alone. */
  function End(s: DuelSession): (r: DuelSession)
    ensures !r.active
    ensures r.started == s.started
    ensures r.(active := s.active) == s
  {
    s.(active := false)
  }

  /** A friendly duel carries no positive stake. */
  predicate IsFriendly(s: DuelSession)
  {
    s.bet <= 0
  }

  /** Whether `p` is one of the two participants. */
  predicate HasPlayer(s: DuelSession, p: PlayerId)
  {
    p == s.player1 || p == s.player2
  }

  /** The other participant, or `None` (Java: null) for a player outside the session. */
  function OpponentId(s: DuelSession, p: PlayerId): (r: Option<PlayerId>)
    ensures r.Some? <==> HasPlayer(s, p)
    ensures r.Some? ==> HasPlayer(s, r.value)
    ensures p == s.player1 ==> r == Some(s.player2)
    ensures p == s.player2 ==> r == Some(s.player1)
  {
    if p == s.player1 then Some(s.player2)
    else if p == s.player2 then Some(s.player1)
    else None
  }

  /** For two distinct participants the opponent of the opponent is the player again. */
  lemma OpponentIsInvolution(s: DuelSession, p: PlayerId)
    requires s.player1 != s.player2 && HasPlayer(s, p)
    ensures OpponentId(s, p).value != p
    ensures OpponentId(s, OpponentId(s, p).value) == Some(p)
  {
  }

  /** `DuellSession.equals`: identity is the id, not the flags or players. */
  predicate SameSession(a: DuelSession, b: DuelSession)
  {
    a.id == b.id
  }

  /** `DuellSession.hashCode`. */
  function SessionHash(s: DuelSession): int
  {
    s.id
  }

  /** Equal sessions hash equally, and the flag updates keep a session equal to itself. */
  lemma SameSessionContract(a: DuelSession, b: DuelSession)
    ensures SameSession(a, b) ==> SessionHash(a) == SessionHash(b)
    ensures SameSession(Start(a), a) && SameSession(End(a), a)
  {
  }

  /** The only mutators of a session. */
  datatype SessionUpdate = StartUpdate | EndUpdate

  /** The session after a series of mutator calls. */
  function ApplyUpdates(s: DuelSession, us: seq<SessionUpdate>): DuelSession
    decreases |us|
  {
    if |us| == 0 then s
    else
      var s' := if us[0] == StartUpdate then Start(s) else End(s);
      ApplyUpdates(s', us[1..])
  }

  /** Ending is terminal: whatever is called afterwards, the session stays inactive,
      keeps its id, players and stake. */
  lemma {:induction false} EndIsTerminal(s: DuelSession, us: seq<SessionUpdate>)
    requires !s.active
    ensures !ApplyUpdates(s, us).active
    ensures ApplyUpdates(s, us).(started := s.started) == s
    decreases |us|
  {
    if |us| > 0 {
      var s' := if us[0] == StartUpdate then Start(s) else End(s);
      EndIsTerminal(s', us[1..]);
    }
  }
}

=== FILE: types.dfy ===
/** Identities and the small shared vocabulary of the duel plugin. */
module Types {

  /** Players are identified by UUIDs in the plugin; only equality matters here. */
  type PlayerId = nat

  /** `DuellRequest.id`, a random UUID per request; modelled by a counter. */
  type RequestId = nat

  /** `DuellSession.id`, a random UUID per session; modelled by a counter. */
  type SessionId = nat

  /** Stands in for a Java reference that may be null. */
  datatype Option<+T> = None | Some(value: T)

  /** A chat message or a title overlay sent to one player, recorded only by its
      message-template key (the text itself comes from the message configuration). */
  datatype Notice = Message(to: PlayerId, key: string) | Title(to: PlayerId, key: string)
}
